=== FILE: README.md ===
# Microblog core in Dafny

A model of the core of the microblog service: a small HTTP service for short
text posts and 1-to-5 ratings of them, kept in a search-indexed document
store. The model covers:

- the entities (`BlogPost`, `BlogPostRating`, `BlogPostSortFilter`, `SortColumn`) with their builders, equality and hash codes;
- the sort-parameter parser, including Java's `String.split` and ASCII case mapping;
- the translation of a post filter into a constant-score store query and a list of field sorts;
- the two repositories (`BlogPostDao`, `BlogPostRatingDao`) over an abstract document store: get, create, update-if-exists, delete, and search with paging defaults and a result window;
- the decision logic of the two REST controllers, as functions from a store and a request to a result and the store afterwards.

The document store is a nested map: index, then type, then id, then a JSON
object. A JSON object maps member names to text or numbers. Null fields are
omitted when a document is written. An update merges the sent members into
the stored ones; a create replaces the whole document. A missing index reads
as empty, is ignored by delete, and makes an update fail. A search returns the
matching documents in the store's own visiting order, which is a parameter
(`scan`). It then takes the window `[from, from + size)`, and refuses a window
that reaches past 10000 results, the store's default result window.

A failure raised below a controller is a `Failure` value:

- `NullArgument` is a null-check precondition or a null dereference;
- `ParseError` is a bad sort parameter;
- `NotFound` and `BadRequest` are the two exception classes;
- `MalformedDocument` is a stored document of the wrong shape;
- `StoreFailure` is a refusal by the store.

`Http.StatusAsWritten` maps failures to status codes the way the exception
classes are declared; `Http.Status` maps them the way the service means to.

Where the code and its design description disagree, the model follows the code:

- the repository's `getById` returns "no post" rather than failing with NotFound, and NotFound is raised by the controller;
- creating a post takes the raw request text as the body and sets no author;
- the missing-id guards never fire, so no "id missing" 400 exists;
- the rating controller and the repository tests call a one-argument `addToParentResource(rating)`, the form the child-resource interface declares, but the rating repository declares only a two-argument form taking the post id first. The model reads the call as the two-argument form with the path's post id. Nothing observable depends on the choice, because the rating the controller builds carries that same post id;
- a new post's timestamp is `Instant.now()` handed to `withTimestamp`, whose parameter is a `Date` (BlogPost.java line 111), which an `Instant` is not; the model reads it as the current time, an abstract integer parameter;
- the disagreements listed under Findings.

## Model

| member | source | states |
|---|---|---|
| `JavaStrings.Split` | src/main/java/com/forgerock/microblog/filter/SortColumn.java:28 | Java `split` on one character: every part is separator-free, input without a separator gives itself as the only part; otherwise the parts are the leading pieces between separators, every dropped piece is empty and the last kept part is not |
| `JavaStrings.SplitFirstPart` | src/main/java/com/forgerock/microblog/filter/SortColumn.java:28-29 | when split gives two or more pieces, the input has a separator and the first piece is exactly the text before the first one |
| `JavaStrings.SplitTwo` | src/main/java/com/forgerock/microblog/filter/SortColumn.java:28 | splitting `a:b` with separator-free, non-empty `b` gives exactly `[a, b]` |
| `JavaStrings.SplitIgnoresTail` | src/main/java/com/forgerock/microblog/filter/SortColumn.java:28-29 | whatever follows a second separator leaves the first two pieces unchanged |
| `JavaStrings.SplitEmptySecondPart` | src/main/java/com/forgerock/microblog/filter/SortColumn.java:28-29 | a separator followed by another or by the end gives a second part that is either dropped or empty |
| `JavaStrings.ToUpperCase` | src/main/java/com/forgerock/microblog/filter/SortColumn.java:15 | the same letters ignoring case, with no lower-case ASCII letter left |
| `JavaStrings.UpperCaseMatchesIgnoringCase` | src/main/java/com/forgerock/microblog/filter/SortColumn.java:15 | upper-casing a token gives an all-upper-case word exactly when the token equals the word ignoring case |
| `JavaStrings.ToLowerCase` | src/main/java/com/forgerock/microblog/es/AbstractElasticsearchDao.java:122-123 | the same letters ignoring case, with no upper-case ASCII letter left |
| `JavaStrings.LowerCaseIdempotent` | src/main/java/com/forgerock/microblog/es/AbstractElasticsearchDao.java:122-123 | lower-casing twice is lower-casing once |
| `JavaStrings.Int32` | src/main/java/com/forgerock/microblog/model/BlogPost.java:76-80 | a Java `int` result: the value in the signed 32-bit range that is congruent to the exact one modulo 2^32 |
| `JavaStrings.CodeUnits` | src/main/java/com/forgerock/microblog/model/BlogPost.java:76 | a character as Java stores it: itself when below U+10000, else a high and a low surrogate |
| `JavaStrings.SurrogatesDecode` | src/main/java/com/forgerock/microblog/model/BlogPost.java:76 | the surrogate pair of a supplementary character decodes back to that character |
| `JavaStrings.Utf16` | src/main/java/com/forgerock/microblog/model/BlogPost.java:76 | a string as UTF-16 code units: between one and two per character, each below 2^16 |
| `JavaStrings.Utf16OfBmp` | src/main/java/com/forgerock/microblog/model/BlogPost.java:76 | a string without supplementary characters is its own code-unit sequence |
| `JavaStrings.HashFrom` | src/main/java/com/forgerock/microblog/model/BlogPost.java:76 | continuing a Java `int` hash over code units stays a signed 32-bit value |
| `JavaStrings.HashFromAppend` | src/main/java/com/forgerock/microblog/model/BlogPost.java:76 | hashing two runs of code units is hashing the first and continuing over the second |
| `JavaStrings.StringHash` | src/main/java/com/forgerock/microblog/model/BlogPost.java:76 | `String.hashCode`: a signed 32-bit value, 0 for the empty string |
| `JavaStrings.StringHashSnoc` | src/main/java/com/forgerock/microblog/model/BlogPost.java:76 | appending a character continues the hash over that character's code units |
| `JavaStrings.StringHashAppend` | src/main/java/com/forgerock/microblog/model/BlogPost.java:76 | appending a character below U+10000 multiplies the hash by 31 and adds the character, in 32-bit arithmetic |
| `JavaStrings.StringHashAppendSupplementary` | src/main/java/com/forgerock/microblog/model/BlogPost.java:76 | appending a supplementary character takes two such steps, one per surrogate |
| `JavaStrings.SupplementaryCharacterHash` | src/main/java/com/forgerock/microblog/model/BlogPost.java:76 | U+1F600 hashes as its two surrogates 0xD83D and 0xDE00, not as one code point |
| `SortColumns.ValueOf` | src/main/java/com/forgerock/microblog/filter/SortColumn.java:22-24 | the enum lookup succeeds exactly for the names `ASC` and `DESC` and fails with a parse error otherwise |
| `SortColumns.NewSortColumn` | src/main/java/com/forgerock/microblog/filter/SortColumn.java:12-16 | the column is kept as given; the direction is accepted exactly when it equals `ASC` or `DESC` ignoring case, and is ascending exactly for `ASC` |
| `SortColumns.Parse` | src/main/java/com/forgerock/microblog/filter/SortColumn.java:26-30 | input without `:` is a parse error; a parsed column is exactly the text before the first `:`; every failure is a parse error (the empty direction token is covered by the lemmas below) |
| `SortColumns.ParseValidAsc` | src/test/java/com/forgerock/microblog/filter/SortColumnTest.java:16-21 | `colName:ASC` parses to column `colName`, ascending |
| `SortColumns.ParseValidDesc` | src/test/java/com/forgerock/microblog/filter/SortColumnTest.java:24-29 | `colName:DESC` parses to column `colName`, descending |
| `SortColumns.ParseRejectsEmptyAndWrongDivider` | src/test/java/com/forgerock/microblog/filter/SortColumnTest.java:32-43 | the empty string and input with another divider are parse errors |
| `SortColumns.ParseRoundTrip` | src/main/java/com/forgerock/microblog/filter/SortColumn.java:12-30 | for a colon-free column and any direction, parsing `column:NAME` gives back that column and direction |
| `SortColumns.ParseDirectionIgnoresCase` | src/main/java/com/forgerock/microblog/filter/SortColumn.java:15 | a colon-free direction token, the empty one included, parses exactly when it is `asc` or `desc` in any mix of cases, and then to the matching direction |
| `SortColumns.ParseRejectsEmptyDirection` | src/main/java/com/forgerock/microblog/filter/SortColumn.java:15-29 | an empty direction token is a parse error, whether split drops it (`colName:`) or keeps it (`colName::DESC`) |
| `SortColumns.ParseIgnoresTail` | src/main/java/com/forgerock/microblog/filter/SortColumn.java:28-29 | anything after a second `:` does not change the parse |
| `SortFilters.Default` | src/main/java/com/forgerock/microblog/filter/BlogPostSortFilter.java:12-24 | a new filter has no time bounds, size or offset, and empty (not null) user-id and sort lists |
| `SortFilters.Make` | src/main/java/com/forgerock/microblog/filter/BlogPostSortFilter.java:26-33 | the six-argument constructor keeps every argument unchanged |
| `SortFilters.SetFromDateTime` | src/main/java/com/forgerock/microblog/filter/BlogPostSortFilter.java:39-41 | sets the lower time bound and changes no other field |
| `SortFilters.SetToDateTime` | src/main/java/com/forgerock/microblog/filter/BlogPostSortFilter.java:47-49 | sets the upper time bound and changes no other field |
| `SortFilters.SetSize` | src/main/java/com/forgerock/microblog/filter/BlogPostSortFilter.java:55-57 | sets the page size and changes no other field |
| `SortFilters.SetOffset` | src/main/java/com/forgerock/microblog/filter/BlogPostSortFilter.java:63-65 | sets the offset and changes no other field |
| `SortFilters.SetUserIds` | src/main/java/com/forgerock/microblog/filter/BlogPostSortFilter.java:71-73 | sets the user-id list and changes no other field |
| `SortFilters.SetSort` | src/main/java/com/forgerock/microblog/filter/BlogPostSortFilter.java:80-83 | sets the sort list and changes no other field |
| `SortFilters.SettersAgreeWithConstructor` | src/main/java/com/forgerock/microblog/filter/BlogPostSortFilter.java:23-83 | applying all six setters to a new filter gives the same filter as the six-argument constructor |
| `Posts.NewPost` | src/main/java/com/forgerock/microblog/model/BlogPost.java:27-31 | the three-argument constructor keeps its arguments and leaves the id null |
| `Posts.ABlogPost` | src/main/java/com/forgerock/microblog/model/BlogPost.java:103 | a new builder has every field null |
| `Posts.WithId` | src/main/java/com/forgerock/microblog/model/BlogPost.java:105-109 | sets the id and keeps the other fields |
| `Posts.WithTimestamp` | src/main/java/com/forgerock/microblog/model/BlogPost.java:111-114 | sets the timestamp and keeps the other fields |
| `Posts.WithBody` | src/main/java/com/forgerock/microblog/model/BlogPost.java:116-119 | sets the body and keeps the other fields |
| `Posts.WithUserId` | src/main/java/com/forgerock/microblog/model/BlogPost.java:121-124 | sets the author and keeps the other fields |
| `Posts.Build` | src/main/java/com/forgerock/microblog/model/BlogPost.java:126-131 | the built post carries exactly the builder's four fields |
| `Posts.BuilderSetsSuppliedFields` | src/main/java/com/forgerock/microblog/model/BlogPost.java:95-131 | each supplied field is set and fields never supplied stay null |
| `Posts.EqualsIsFieldwise` | src/main/java/com/forgerock/microblog/model/BlogPost.java:49-71 | the null-safe equality chain holds exactly when all four fields are equal, null equal to null |
| `Posts.DateHash` | src/main/java/com/forgerock/microblog/model/BlogPost.java:77 | a date's hash: the two halves of its 64-bit millisecond count xor-ed, as a signed 32-bit value |
| `Posts.HashCode` | src/main/java/com/forgerock/microblog/model/BlogPost.java:73-81 | a signed 32-bit value |
| `Posts.HashCodeAgreesWithEquals` | src/main/java/com/forgerock/microblog/model/BlogPost.java:49-81 | equal posts hash alike |
| `Ratings.NewRating` | src/main/java/com/forgerock/microblog/model/BlogPostRating.java:22-27 | the four-argument constructor keeps its arguments; its score is never null |
| `Ratings.EmptyRating` | src/main/java/com/forgerock/microblog/model/BlogPostRating.java:32-33 | the binder's constructor leaves every field null, the score included |
| `Ratings.SetId` | src/main/java/com/forgerock/microblog/model/BlogPostRating.java:39-42 | sets the id and keeps the other fields |
| `Ratings.SetBlogPostId` | src/main/java/com/forgerock/microblog/model/BlogPostRating.java:48-51 | sets the post id and keeps the other fields |
| `Ratings.SetRating` | src/main/java/com/forgerock/microblog/model/BlogPostRating.java:58-61 | sets the score, null allowed, and keeps the other fields |
| `Ratings.SetUserId` | src/main/java/com/forgerock/microblog/model/BlogPostRating.java:67-70 | sets the author and keeps the other fields |
| `Ratings.ABlogPostRating` | src/main/java/com/forgerock/microblog/model/BlogPostRating.java:119-126 | a new builder has null fields and a score of 0 |
| `Ratings.WithId` | src/main/java/com/forgerock/microblog/model/BlogPostRating.java:128-132 | sets the id and keeps the other fields |
| `Ratings.WithBlogPostId` | src/main/java/com/forgerock/microblog/model/BlogPostRating.java:134-138 | sets the post id and keeps the other fields |
| `Ratings.WithRating` | src/main/java/com/forgerock/microblog/model/BlogPostRating.java:140-144 | sets the score and keeps the other fields |
| `Ratings.WithUserId` | src/main/java/com/forgerock/microblog/model/BlogPostRating.java:146-150 | sets the author and keeps the other fields |
| `Ratings.Build` | src/main/java/com/forgerock/microblog/model/BlogPostRating.java:152-156 | the built rating carries the builder's four fields, the score boxed and so never null |
| `Ratings.BuilderRoundTrip` | src/main/java/com/forgerock/microblog/model/BlogPostRating.java:118-157 | a rating built from all four fields holds exactly those fields |
| `Ratings.UnsetBuilderRatingOutOfRange` | src/main/java/com/forgerock/microblog/model/BlogPostRating.java:10-12 | a rating built without a score holds 0, which lies outside 1..5 |
| `Ratings.EqualsIsFieldwise` | src/main/java/com/forgerock/microblog/model/BlogPostRating.java:72-94 | the null-safe equality chain holds exactly when all four fields are equal |
| `Ratings.HashCode` | src/main/java/com/forgerock/microblog/model/BlogPostRating.java:96-104 | a signed 32-bit value |
| `Ratings.HashCodeAgreesWithEquals` | src/main/java/com/forgerock/microblog/model/BlogPostRating.java:72-104 | equal ratings hash alike |
| `Documents.ReadText` | src/main/java/com/forgerock/microblog/es/AbstractElasticsearchDao.java:34-36 | a missing member reads as null, a text member as its text, and a number member is malformed |
| `Documents.ReadNumber` | src/main/java/com/forgerock/microblog/es/AbstractElasticsearchDao.java:34-36 | a missing member reads as null, a number member as its value, and a text member is malformed |
| `Documents.DecodePost` | src/main/java/com/forgerock/microblog/dao/BlogPostDao.java:42 | a post document decodes exactly when each of its four known members has the right kind |
| `Documents.PostRoundTrip` | src/main/java/com/forgerock/microblog/dao/BlogPostDao.java:80 | every post survives being written and read back |
| `Documents.DecodedPostReencodes` | src/main/java/com/forgerock/microblog/dao/BlogPostDao.java:42 | a decoded post, written again, is the document's known members and nothing else |
| `Documents.DecodeRating` | src/main/java/com/forgerock/microblog/dao/BlogPostRatingDao.java:35 | a rating document decodes exactly when each of its four known members has the right kind |
| `Documents.RatingRoundTrip` | src/main/java/com/forgerock/microblog/dao/BlogPostRatingDao.java:46 | every rating survives being written and read back |
| `Documents.DecodedRatingReencodes` | src/main/java/com/forgerock/microblog/dao/BlogPostRatingDao.java:35 | a decoded rating, written again, is the document's known members and nothing else |
| `Documents.DecodeEach` | src/main/java/com/forgerock/microblog/dao/BlogPostDao.java:53-59 | the hit list decodes exactly when every hit does, to one value per hit in hit order; otherwise the failure is some hit's |
| `DocumentStore.GetById` | src/main/java/com/forgerock/microblog/es/ElasticsearchClient.java:72-85 | no index or no document is an empty answer; otherwise the stored document (the same for `findById`, AbstractElasticsearchDao.java lines 41-56) |
| `DocumentStore.DeleteById` | src/main/java/com/forgerock/microblog/es/ElasticsearchClient.java:94-106 | afterwards the id holds nothing and everything else is unchanged; a missing index leaves the store as it was (the same for AbstractElasticsearchDao.java lines 58-70) |
| `DocumentStore.DeleteByIdIdempotent` | src/main/java/com/forgerock/microblog/es/ElasticsearchClient.java:94-106 | deleting twice is deleting once |
| `DocumentStore.Create` | src/main/java/com/forgerock/microblog/es/ElasticsearchClient.java:108-119 | fails exactly for a null id or null document, writing nothing; otherwise stores the document whole under the id, returns that id and changes nothing else (the same for `createNewDocument`, AbstractElasticsearchDao.java lines 72-83) |
| `DocumentStore.Update` | src/main/java/com/forgerock/microblog/es/ElasticsearchClient.java:121-131 | a null id or document is rejected; a missing document is a store failure; otherwise the sent members replace theirs, the others are kept, and nothing else changes (the same for `updateDocument`, AbstractElasticsearchDao.java lines 85-95) |
| `DocumentStore.PrepareSearch` | src/main/java/com/forgerock/microblog/es/ElasticsearchClient.java:154-182 | the offset defaults to 0 and the size to 10000; query and sorts are kept in order |
| `DocumentStore.PrepareSearchAll` | src/main/java/com/forgerock/microblog/es/ElasticsearchClient.java:139-141 | the three-argument search has no paging and no sorts |
| `DocumentStore.PrepareFindAll` | src/main/java/com/forgerock/microblog/es/AbstractElasticsearchDao.java:117-144 | as the client's search, with the index and type names lower-cased |
| `DocumentStore.PrepareFindAllUnpaged` | src/main/java/com/forgerock/microblog/es/AbstractElasticsearchDao.java:103-106 | the one-argument `findAll`: offset 0, size 10000, no sorts |
| `DocumentStore.Matching` | src/main/java/com/forgerock/microblog/es/ElasticsearchClient.java:179-186 | the store's matches: no more than the ids visited, each a stored document the query selects |
| `DocumentStore.MatchingMembers` | src/main/java/com/forgerock/microblog/es/ElasticsearchClient.java:179-186 | a document is among the matches exactly when a visited id holds it and the query selects it |
| `DocumentStore.MatchingAppend` | src/main/java/com/forgerock/microblog/es/ElasticsearchClient.java:179-186 | visiting `a` then `b` lists the matches of `a`, less the ids `b` visits again, then those of `b`: the visiting order is kept and a repeated id counts at its last visit |
| `DocumentStore.MatchingCountsEachIdOnce` | src/main/java/com/forgerock/microblog/es/ElasticsearchClient.java:179-186 | the matches number exactly the distinct visited ids whose document the query selects, so no document is a hit twice |
| `DocumentStore.MatchingCountsStoredMatches` | src/main/java/com/forgerock/microblog/es/ElasticsearchClient.java:179-186 | when the order visits every stored id, the matches number exactly the stored documents the query selects |
| `DocumentStore.Page` | src/main/java/com/forgerock/microblog/es/ElasticsearchClient.java:164-176 | the window `[from, from + size)` of the hits: its length, each element the hit at `from` plus its position, all hits when the first page holds them |
| `DocumentStore.Execute` | src/main/java/com/forgerock/microblog/es/ElasticsearchClient.java:184-192 | a missing index is an empty answer; an out-of-window request is refused; otherwise the total is the number of matches and the hits are exactly the page of them at the requested offset and size |
| `DocumentStore.DefaultWindowAccepted` | src/main/java/com/forgerock/microblog/es/AbstractElasticsearchDao.java:126-138 | the default paging is always inside the window |
| `PostRepository.GetById` | src/main/java/com/forgerock/microblog/dao/BlogPostDao.java:33-44 | a null id is rejected; no document is "no post"; otherwise the stored document decoded, or a malformed-document failure |
| `PostRepository.QueryFor` | src/main/java/com/forgerock/microblog/dao/BlogPostDao.java:112-134 | a constant-score query with a user-id clause exactly when the user list is non-null and non-empty, and a timestamp range clause exactly when a bound is given, holding exactly the bounds given |
| `PostRepository.QuerySelectsAcceptedPosts` | src/main/java/com/forgerock/microblog/dao/BlogPostDao.java:112-134 | the query selects a stored post exactly when the post's author is among the users (if any are named) and its timestamp lies within the bounds given |
| `PostRepository.ASortBuilder` | src/main/java/com/forgerock/microblog/dao/BlogPostDao.java:144-157 | only the exact field `userId` becomes `userId.keyword`; other fields and the direction pass through |
| `PostRepository.BuildSorts` | src/main/java/com/forgerock/microblog/dao/BlogPostDao.java:141 | succeeds exactly when every parameter parses, giving one sort per parameter in order; otherwise a parse error |
| `PostRepository.SortBuilders` | src/main/java/com/forgerock/microblog/dao/BlogPostDao.java:136-142 | an absent or empty sort list gives no sorts; otherwise as above |
| `PostRepository.ListPosts` | src/main/java/com/forgerock/microblog/dao/BlogPostDao.java:50-59 | a bad sort parameter fails; a missing index lists nothing; every listed post is accepted by the filter |
| `PostRepository.GetAll` | src/main/java/com/forgerock/microblog/dao/BlogPostDao.java:46-60 | as above, with the filter's own page size |
| `PostRepository.GetAllOnePostPerHit` | src/main/java/com/forgerock/microblog/dao/BlogPostDao.java:53-59 | no answer or zero total hits lists nothing; otherwise one post per hit, in hit order |
| `PostRepository.StoredPostsMembers` | src/main/java/com/forgerock/microblog/dao/BlogPostDao.java:42 | a post is stored exactly when some stored document decodes to it |
| `PostRepository.MatchesAreAcceptedPosts` | src/main/java/com/forgerock/microblog/dao/BlogPostDao.java:112-134 | the matches of a filter's query decode to exactly the stored posts the filter accepts |
| `PostRepository.DefaultListingDecodesAllMatches` | src/main/java/com/forgerock/microblog/dao/BlogPostDao.java:50-59 | with default paging and at most one page of ids, the listing is every match, decoded |
| `PostRepository.DefaultListingCountsEachPostOnce` | src/main/java/com/forgerock/microblog/dao/BlogPostDao.java:50-59 | with default paging over a readable store, the listing has one post per distinct visited id the filter selects |
| `PostRepository.ListingDecodesHits` | src/main/java/com/forgerock/microblog/dao/BlogPostDao.java:53-59 | a successful listing is all of the search's hits decoded one by one, in hit order: as many posts as hits |
| `PostRepository.ListingIsWindowOfMatches` | src/main/java/com/forgerock/microblog/dao/BlogPostDao.java:46-60 | a successful listing is the whole requested page of the matches from the filter's offset, each decoded: as many posts as the page holds |
| `PostRepository.DecodedPage` | src/main/java/com/forgerock/microblog/es/ElasticsearchClient.java:164-176 | posts decoded from a page of the matches are the matches from the page's start, decoded |
| `PostRepository.GetAllSelectsExactlyAccepted` | src/main/java/com/forgerock/microblog/dao/BlogPostDao.java:46-60 | with default paging over a readable store, `getAll` lists exactly the stored posts the filter accepts |
| `PostRepository.Create` | src/main/java/com/forgerock/microblog/dao/BlogPostDao.java:76-82 | a post without an id is rejected; otherwise it is stored whole under its id and returned unchanged |
| `PostRepository.CreateThenGet` | src/main/java/com/forgerock/microblog/dao/BlogPostDao.java:33-82 | a created post reads back as itself |
| `PostRepository.Update` | src/main/java/com/forgerock/microblog/dao/BlogPostDao.java:84-93 | a null id is rejected and an absent post is NotFound, with no write; otherwise the post's members are merged in, nothing else changes, and the post is returned unchanged |
| `PostRepository.Delete` | src/main/java/com/forgerock/microblog/dao/BlogPostDao.java:95-99 | a null id is rejected; otherwise the post is gone and nothing else changed, whether or not it existed |
| `PostRepository.DeleteIdempotent` | src/main/java/com/forgerock/microblog/dao/BlogPostDao.java:95-99 | deleting twice is deleting once, and the post then reads as absent |
| `PostRepository.OffsetWithoutSizeFails` | src/main/java/com/forgerock/microblog/es/ElasticsearchClient.java:164-176 | a positive offset without a size asks past the result window, so the listing always fails |
| `PostRepository.RemainingWindow` | src/main/java/com/forgerock/microblog/es/ElasticsearchClient.java:171-176 | the page size that keeps an offset inside the window |
| `PostRepository.GetAllWithinWindow` | src/main/java/com/forgerock/microblog/dao/BlogPostDao.java:46-60 | the corrected listing agrees with `getAll` whenever a size is given or no offset is |
| `PostRepository.WithinWindowAcceptsOffsets` | src/main/java/com/forgerock/microblog/dao/BlogPostDao.java:46-60 | with the correction, an offset inside the window and no size succeed, list as many posts as there are matches from the offset on, and list exactly those matches, decoded in order |
| `RatingRepository.ParentRequestTargetsRatings` | src/main/java/com/forgerock/microblog/dao/BlogPostRatingDao.java:26-29 | the search goes to the rating index and type unchanged by lower-casing, unpaged and unsorted |
| `RatingRepository.GetAllByParentId` | src/main/java/com/forgerock/microblog/dao/BlogPostRatingDao.java:20-39 | a null parent id is rejected; a missing index lists nothing; every listed rating names the parent |
| `RatingRepository.ListingDecodesChildDocs` | src/main/java/com/forgerock/microblog/dao/BlogPostRatingDao.java:26-38 | over a readable store the listing is every rating document naming the parent, decoded in visiting order |
| `RatingRepository.DecodedChildrenAreStored` | src/main/java/com/forgerock/microblog/dao/BlogPostRatingDao.java:26-38 | every rating decoded from the parent's hits is a stored rating naming the parent |
| `RatingRepository.StoredChildrenAreDecoded` | src/main/java/com/forgerock/microblog/dao/BlogPostRatingDao.java:26-38 | every stored rating naming the parent, under a visited id, is among the decoded hits |
| `RatingRepository.DecodedHitsNameParent` | src/main/java/com/forgerock/microblog/dao/BlogPostRatingDao.java:26-36 | ratings decoded from hits of the parent's post-id query all name the parent |
| `RatingRepository.GetAllByParentIdSelectsChildren` | src/main/java/com/forgerock/microblog/dao/BlogPostRatingDao.java:20-39 | over a readable store, a post's ratings are exactly the stored ratings naming it |
| `RatingRepository.ListingCountsEachChildOnce` | src/main/java/com/forgerock/microblog/dao/BlogPostRatingDao.java:26-38 | over a readable store, a post's ratings number exactly its distinct visited child ids: none is listed twice |
| `RatingRepository.AddToParentResource` | src/main/java/com/forgerock/microblog/dao/BlogPostRatingDao.java:41-48 | a null rating, a null post id or a null rating id is rejected with no write; otherwise the rating is stored whole under its own id and returned unchanged |
| `RatingRepository.AddedRatingIsListed` | src/main/java/com/forgerock/microblog/dao/BlogPostRatingDao.java:41-48 | an added rating is among the stored ratings afterwards |
| `Http.StatusAsWritten` | src/main/java/com/forgerock/microblog/exception/NotFoundException.java:9-10 | only NotFound becomes 404; every other failure, BadRequest included, becomes 500 |
| `Http.Status` | src/main/java/com/forgerock/microblog/exception/BadRequestException.java:3-6 | BadRequest becomes 400, NotFound 404, any other failure 500 |
| `Http.StatusDiffersOnlyOnBadRequest` | src/main/java/com/forgerock/microblog/exception/BadRequestException.java:3-6 | the two mappings differ on the bad-request failure alone |
| `Http.StatusOfDiffersOnlyOnBadRequest` | src/main/java/com/forgerock/microblog/exception/BadRequestException.java:3-6 | a handler result ends in the same status under both mappings unless it is the bad-request failure |
| `Http.StatusOfAsWritten` | src/main/java/com/forgerock/microblog/exception/NotFoundException.java:9-10 | a reply's own status, or the failure's status as declared |
| `Http.StatusOf` | src/main/java/com/forgerock/microblog/exception/BadRequestException.java:3-6 | a reply's own status, or the failure's intended status |
| `Http.IdGuardNeverFires` | src/main/java/com/forgerock/microblog/controller/BlogPostController.java:48-50 | the `isEmpty(id == null)` guard is false for every id, null included |
| `PostHandlers.GetAll` | src/main/java/com/forgerock/microblog/controller/BlogPostController.java:39-43 | read only; on success 200 with exactly the repository's list, every post accepted by the filter; on failure exactly the repository's failure |
| `PostHandlers.GetBlogPost` | src/main/java/com/forgerock/microblog/controller/BlogPostController.java:45-54 | read only; an absent post is NotFound; a stored post that decodes is served with 200 as decoded, and a 200 is never anything else; a repository failure (a malformed document) is passed on unchanged |
| `PostHandlers.NewPostFor` | src/main/java/com/forgerock/microblog/controller/BlogPostController.java:61-67 | the new post has the fresh id, the current time, the request text as body and no author |
| `PostHandlers.CreateBlogPost` | src/main/java/com/forgerock/microblog/controller/BlogPostController.java:56-74 | always 201 with the new id as location; the new post is stored under it and nothing else changes |
| `PostHandlers.CreatedPostIsServed` | src/main/java/com/forgerock/microblog/controller/BlogPostController.java:45-74 | reading the created location gives back the created post |
| `PostHandlers.UpdateBlogPost` | src/main/java/com/forgerock/microblog/controller/BlogPostController.java:76-91 | as written: always a null-argument failure, with the store unchanged |
| `PostHandlers.UpdateOfStoredPostFails` | src/main/java/com/forgerock/microblog/controller/BlogPostController.java:84-88 | even for a stored post, the update as written is a server error and the post is left as it was |
| `PostHandlers.UpdateBlogPostForwardingId` | src/main/java/com/forgerock/microblog/controller/BlogPostController.java:76-91 | corrected: 200 exactly for a stored post that decodes, answering a post holding only the id and the new body and changing nothing else; an absent post is NotFound and a malformed one a server error, both with no write |
| `PostHandlers.CorrectedUpdateKeepsOtherFields` | src/main/java/com/forgerock/microblog/controller/BlogPostController.java:84-88 | the corrected update replaces the body and keeps the stored timestamp and author |
| `PostHandlers.DeleteBlogPost` | src/main/java/com/forgerock/microblog/controller/BlogPostController.java:93-101 | 204 whether or not the post existed; afterwards it is gone and nothing else changed |
| `PostHandlers.DeletedPostIsNotFound` | src/main/java/com/forgerock/microblog/controller/BlogPostController.java:45-101 | a deleted post reads as NotFound, and deleting again changes nothing |
| `RatingHandlers.GetAllRatingsForBlogPost` | src/main/java/com/forgerock/microblog/controller/BlogPostRatingController.java:49-56 | read only; on success 200 with exactly the repository's list for the path id, every rating naming that post; on failure exactly the repository's failure |
| `RatingHandlers.RatingFor` | src/main/java/com/forgerock/microblog/controller/BlogPostRatingController.java:89-95 | the stored rating has the fresh id, the path's post id, and the body's score and author |
| `RatingHandlers.AddRating` | src/main/java/com/forgerock/microblog/controller/BlogPostRatingController.java:89-102 | 201 with the fresh id as location, and that rating stored under it |
| `RatingHandlers.SubmitRatingForBlogPost` | src/main/java/com/forgerock/microblog/controller/BlogPostRatingController.java:70-103 | as written: a null score fails and a score outside 1..5 is BadRequest, both with no write; otherwise it succeeds exactly when the post lookup does not fail, storing the rating, answering 201 and changing nothing else; any failure leaves the store as it was |
| `RatingHandlers.RatingForMissingPostIsStored` | src/main/java/com/forgerock/microblog/controller/BlogPostRatingController.java:82-85 | as written, a rating for a post that does not exist is stored and answered with 201 |
| `RatingHandlers.OutOfRangeScoreIsServerError` | src/main/java/com/forgerock/microblog/controller/BlogPostRatingController.java:73-76 | as written, an out-of-range score ends in 500; intended, 400 |
| `RatingHandlers.SubmitRatingCheckingParent` | src/main/java/com/forgerock/microblog/controller/BlogPostRatingController.java:68-103 | corrected: a post that does not exist is NotFound with no write; success needs a stored post and changes nothing but the new rating; any failure leaves the store as it was |
| `RatingHandlers.CorrectedSubmitNeedsParent` | src/main/java/com/forgerock/microblog/controller/BlogPostRatingController.java:68 | a successful corrected submission had a stored post and a score in 1..5 |
| `RatingHandlers.SubmittedRatingIsStored` | src/main/java/com/forgerock/microblog/controller/BlogPostRatingController.java:88-102 | a successful submission leaves the new rating among the stored ratings |

## Left out

- Text search (`BlogPostDao.search`): its result depends on the store's relevance ranking of a simple query string, which is not part of this model.
- Relevance semantics: the store's scoring, analysis and tokenisation are not modelled. The rating filter's common-terms query is read as an exact match on the post id. The user-id terms query is read as an exact match on the author.
- Sorting: the sorts are built and sent, but the order of results is the `scan` parameter rather than a sort of the matches.
- JSON encoding: Gson is modelled as writing one member per non-null field and reading members by name. Its lenient coercions, the date format and nested values are not modelled; timestamps are abstract integers.
- `Posts.DateHash`: it takes the timestamp as a 64-bit millisecond count; the `Date` object itself is not modelled.
- Case mapping covers ASCII letters only, not Java's full Unicode case tables or locale.
- The fresh UUID and the current time are parameters of the handlers, not drawn.
- The Location header is the new id alone, not the full URI the framework builds from the request.
- Spring request binding is not modelled: a missing or unreadable request body, and a path without an id, are refused by the framework before any handler runs. Request bodies are therefore non-null values.
- Logging, Swagger, configuration, `Application`, `BaseController` and the client's start-up and shutdown (`init`, `cleanUp`) hold no domain logic.
- The store connection and its transport (`ElasticsearchRestClient`, `ElasticsearchClientFactory`) are replaced by the map store.
- The check-then-act race between the existence check and the write in `update` is not modelled, because operations are sequential here.
- `getQueryBuilder`'s branch for a null filter is not modelled, because `getAll` rejects a null filter first.
- A filter's user-id and sort lists are `Option` values, so a null list (possible through the setters) is modelled; null elements inside a list are not.

## Findings

| source | as written | input that shows it | evidently intended | confidence | as-written member | corrected member |
|---|---|---|---|---|---|---|
| src/main/java/com/forgerock/microblog/controller/BlogPostController.java:84-88 | the post passed to the repository is built from the body text only, so its id is null and the repository's existence check throws on it | PUT `/blogposts/p1` with any text while post `p1` is stored: 500, post unchanged | forward the path id, so the body is replaced and the timestamp and author kept, or 404 for an absent post | high, not executed | `PostHandlers.UpdateOfStoredPostFails` | `PostHandlers.CorrectedUpdateKeepsOtherFields` |
| src/main/java/com/forgerock/microblog/controller/BlogPostRatingController.java:82-85 | the not-found response is built and discarded, so the handler goes on to store the rating | POST `/blogposts/nope/ratings` with `{"rating": 4}` on an empty store: 201 and a stored rating for a missing post | answer 404 and store nothing, as the handler's documentation says | high, not executed | `RatingHandlers.RatingForMissingPostIsStored` | `RatingHandlers.CorrectedSubmitNeedsParent` |
| src/main/java/com/forgerock/microblog/exception/BadRequestException.java:3-6 | the bad-request exception has no status annotation (the not-found one has), so it surfaces as 500 | POST `/blogposts/p1/ratings` with `{"rating": 6}`: 500 | 400, as the controller tests expect for out-of-range scores | medium, not executed | `RatingHandlers.OutOfRangeScoreIsServerError` | `Http.Status` |
| src/main/java/com/forgerock/microblog/es/ElasticsearchClient.java:164-176 | an offset without a size keeps the default size of 10000, so offset plus size passes the store's 10000-result window | GET `/blogposts?offset=10`: the store refuses the search, 500 | when no size is given, ask for the rest of the window from the offset | medium, not executed | `PostRepository.OffsetWithoutSizeFails` | `PostRepository.WithinWindowAcceptsOffsets` |

=== FILE: base.dfy ===
/**
 * Shared vocabulary: Java's nullable references become `Option`, and the
 * exceptions that the microblog service throws become the `Failure` cases of
 * a `Result`.
 */
module Base {

  /** A Java reference that may be null. */
  datatype Option<+T> = None | Some(value: T)

  /** The exceptions that leave the core operations. */
  datatype Failure =
    | NullArgument       // NullPointerException, from Preconditions.checkNotNull or unboxing a null Integer
    | ParseError         // SortColumn.parse: a missing split piece or an unknown direction name
    | NotFound           // NotFoundException
    | BadRequest         // BadRequestException
    | MalformedDocument  // the JSON decoder could not read a stored document
    | StoreFailure       // an exception raised by the document store itself

  /** Either a value or the exception that was thrown instead. */
  datatype Result<+T> = Ok(value: T) | Err(failure: Failure) {

    predicate IsFailure() {
      Err?
    }

    function PropagateFailure<U>(): Result<U>
      requires Err?
    {
      Err(failure)
    }

    function Extract(): T
      requires Ok?
    {
      value
    }
  }
}

=== FILE: documents.dfy ===
/**
 * The JSON documents the store holds, and the encoding of posts and ratings
 * into them. The encoder writes one member per non-null field and omits null
 * fields; the decoder reads the members it knows, treats a missing member as
 * null, ignores unknown members, and fails on a member of the wrong kind.
 * Timestamps are abstract numbers rather than formatted dates.
 */
module Documents {
  import opened Base
  import Posts
  import Ratings

  datatype Value = Text(text: string) | Number(number: int)

  /** One JSON object: member name to scalar value. */
  type Doc = map<string, Value>

  const IdField := "id"
  const TimestampField := "timestamp"
  const BodyField := "body"
  const UserIdField := "userId"
  const BlogPostIdField := "blogPostId"
  const RatingField := "rating"

  function TextMember(name: string, v: Option<string>): (d: Doc)
    ensures name in d <==> v.Some?
    ensures v.Some? ==> d == map[name := Text(v.value)]
    ensures v.None? ==> d == map[]
  {
    if v.Some? then map[name := Text(v.value)] else map[]
  }

  function NumberMember(name: string, v: Option<int>): (d: Doc)
    ensures name in d <==> v.Some?
    ensures v.Some? ==> d == map[name := Number(v.value)]
    ensures v.None? ==> d == map[]
  {
    if v.Some? then map[name := Number(v.value)] else map[]
  }

  /** A text member as a nullable string. */
  function ReadText(d: Doc, name: string): (r: Result<Option<string>>)
    ensures r == Ok(None) <==> name !in d
    ensures forall s :: r == Ok(Some(s)) <==> name in d && d[name] == Text(s)
    ensures r.Err? <==> name in d && d[name].Number?
    ensures r.Err? ==> r.failure == MalformedDocument
  {
    if name !in d then Ok(None)
    else match d[name]
      case Text(s) => Ok(Some(s))
      case Number(_) => Err(MalformedDocument)
  }

  /** A number member as a nullable integer. */
  function ReadNumber(d: Doc, name: string): (r: Result<Option<int>>)
    ensures r == Ok(None) <==> name !in d
    ensures forall n :: r == Ok(Some(n)) <==> name in d && d[name] == Number(n)
    ensures r.Err? <==> name in d && d[name].Text?
    ensures r.Err? ==> r.failure == MalformedDocument
  {
    if name !in d then Ok(None)
    else match d[name]
      case Number(n) => Ok(Some(n))
      case Text(_) => Err(MalformedDocument)
  }

  /** Serialise a post. */
  function EncodePost(p: Posts.Post): (d: Doc)
  {
    TextMember(IdField, p.id) + NumberMember(TimestampField, p.timestamp)
    + TextMember(BodyField, p.body) + TextMember(UserIdField, p.userId)
  }

  /** Deserialise a post. */
  function DecodePost(d: Doc): (r: Result<Posts.Post>)
    ensures r.Ok? <==> ReadText(d, IdField).Ok? && ReadNumber(d, TimestampField).Ok?
                       && ReadText(d, BodyField).Ok? && ReadText(d, UserIdField).Ok?
  {
    var id :- ReadText(d, IdField);
    var timestamp :- ReadNumber(d, TimestampField);
    var body :- ReadText(d, BodyField);
    var userId :- ReadText(d, UserIdField);
    Ok(Posts.Post(id, timestamp, body, userId))
  }

  /** Every post survives being written and read back. */
  lemma PostRoundTrip(p: Posts.Post)
    ensures DecodePost(EncodePost(p)) == Ok(p)
  {
    var d := EncodePost(p);
    assert ReadText(d, IdField) == Ok(p.id);
    assert ReadNumber(d, TimestampField) == Ok(p.timestamp);
    assert ReadText(d, BodyField) == Ok(p.body);
    assert ReadText(d, UserIdField) == Ok(p.userId);
  }

  /** A decoded post is the document's known members and nothing else. */
  lemma DecodedPostReencodes(d: Doc, p: Posts.Post)
    requires DecodePost(d) == Ok(p)
    ensures EncodePost(p) == map k | k in d && k in {IdField, TimestampField, BodyField, UserIdField} :: d[k]
  {
  }

  /** Serialise a rating. */
  function EncodeRating(r: Ratings.Rating): (d: Doc)
  {
    TextMember(IdField, r.id) + TextMember(BlogPostIdField, r.blogPostId)
    + NumberMember(RatingField, r.rating) + TextMember(UserIdField, r.userId)
  }

  /** Deserialise a rating. */
  function DecodeRating(d: Doc): (r: Result<Ratings.Rating>)
    ensures r.Ok? <==> ReadText(d, IdField).Ok? && ReadText(d, BlogPostIdField).Ok?
                       && ReadNumber(d, RatingField).Ok? && ReadText(d, UserIdField).Ok?
  {
    var id :- ReadText(d, IdField);
    var blogPostId :- ReadText(d, BlogPostIdField);
    var rating :- ReadNumber(d, RatingField);
    var userId :- ReadText(d, UserIdField);
    Ok(Ratings.Rating(id, blogPostId, rating, userId))
  }

  /** A decoded rating carries the document's post id. */
  lemma DecodedRatingPostId(d: Doc, r: Ratings.Rating)
    requires DecodeRating(d) == Ok(r)
    ensures ReadText(d, BlogPostIdField) == Ok(r.blogPostId)
  {
  }

  /** Every rating survives being written and read back. */
  lemma RatingRoundTrip(r: Ratings.Rating)
    ensures DecodeRating(EncodeRating(r)) == Ok(r)
  {
    var d := EncodeRating(r);
    assert ReadText(d, IdField) == Ok(r.id);
    assert ReadText(d, BlogPostIdField) == Ok(r.blogPostId);
    assert ReadNumber(d, RatingField) == Ok(r.rating);
    assert ReadText(d, UserIdField) == Ok(r.userId);
  }

  /** A decoded rating is the document's known members and nothing else. */
  lemma DecodedRatingReencodes(d: Doc, r: Ratings.Rating)
    requires DecodeRating(d) == Ok(r)
    ensures EncodeRating(r) == map k | k in d && k in {IdField, BlogPostIdField, RatingField, UserIdField} :: d[k]
  {
  }

  /**
   * Decode the hits of a search one by one, in order; the first hit that
   * cannot be decoded aborts the whole list.
   */
  function DecodeEach<T>(hits: seq<Doc>, decode: Doc -> Result<T>): (r: Result<seq<T>>)
    ensures r.Ok? <==> forall i :: 0 <= i < |hits| ==> decode(hits[i]).Ok?
    ensures r.Ok? ==> |r.value| == |hits|
    ensures r.Ok? ==> forall i :: 0 <= i < |hits| ==> decode(hits[i]) == Ok(r.value[i])
    ensures r.Err? ==> exists i :: 0 <= i < |hits| && decode(hits[i]) == Err(r.failure)
  {
    if |hits| == 0 then Ok([])
    else match decode(hits[0])
      case Err(f) => Err(f)
      case Ok(x) =>
        match DecodeEach(hits[1..], decode)
        case Err(f) => Err(f)
        case Ok(xs) => Ok([x] + xs)
  }
}

=== FILE: http.dfy ===
/**
 * What the controllers hand back to the web framework: a status code, an
 * optional body and an optional location, and how a failure raised below a
 * controller becomes a status code.
 */
module Http {
  import opened Base

  const StatusOk: int := 200
  const StatusCreated: int := 201
  const StatusNoContent: int := 204
  const StatusBadRequest: int := 400
  const StatusNotFound: int := 404
  const StatusServerError: int := 500

  /** A successful answer. `location` is the id appended to the request URI of a created resource. */
  datatype Reply<T> = Reply(status: int, body: Option<T>, location: Option<string>)

  /**
   * The status a failure surfaces as, the way the exception classes are
   * declared: only the not-found exception carries a status annotation, so
   * the bad-request exception falls through to the framework's default 500
   * like any other runtime exception.
   */
  function StatusAsWritten(f: Failure): (code: int)
    ensures code == StatusNotFound <==> f == NotFound
    ensures code != StatusNotFound ==> code == StatusServerError
    ensures f == BadRequest ==> code == StatusServerError
  {
    if f == NotFound then StatusNotFound else StatusServerError
  }

  /** The status a failure is meant to surface as: bad requests are the client's fault. */
  function Status(f: Failure): (code: int)
    ensures code == StatusBadRequest <==> f == BadRequest
    ensures code == StatusNotFound <==> f == NotFound
    ensures code !in {StatusBadRequest, StatusNotFound} ==> code == StatusServerError
  {
    if f == BadRequest then StatusBadRequest
    else if f == NotFound then StatusNotFound
    else StatusServerError
  }

  /** The two mappings differ on the bad-request failure and nowhere else. */
  lemma StatusDiffersOnlyOnBadRequest(f: Failure)
    ensures Status(f) != StatusAsWritten(f) <==> f == BadRequest
  {
  }

  /** The status code a whole handler result ends in, as the exceptions are declared. */
  function StatusOfAsWritten<T>(r: Result<Reply<T>>): (code: int)
    ensures r.Ok? ==> code == r.value.status
    ensures r.Err? ==> code == StatusAsWritten(r.failure)
  {
    match r
    case Ok(reply) => reply.status
    case Err(f) => StatusAsWritten(f)
  }

  /** The status code a whole handler result is meant to end in. */
  function StatusOf<T>(r: Result<Reply<T>>): (code: int)
    ensures r.Ok? ==> code == r.value.status
    ensures r.Err? ==> code == Status(r.failure)
  {
    match r
    case Ok(reply) => reply.status
    case Err(f) => Status(f)
  }

  /** A handler result ends in the same status either way, unless it is the bad-request failure. */
  lemma StatusOfDiffersOnlyOnBadRequest<T>(r: Result<Reply<T>>)
    ensures StatusOf(r) != StatusOfAsWritten(r) <==> r == Err(BadRequest)
  {
    if r.Err? {
      StatusDiffersOnlyOnBadRequest(r.failure);
    }
  }

  /** The argument of the framework's `isEmpty(Object)`: any Java value, not only strings. */
  datatype JavaObject = JNull | JString(s: string) | JBoolean(b: bool)

  /** `StringUtils.isEmpty(Object)`: null, or the empty string. */
  predicate IsEmpty(o: JavaObject) {
    o == JNull || o == JString("")
  }

  /** The controllers' id guard passes `id == null`, a boolean, to `isEmpty`. */
  predicate IdGuardAsWritten(id: Option<string>) {
    IsEmpty(JBoolean(id.None?))
  }

  /** The guard never fires: a boolean is neither null nor the empty string, whatever the id. */
  lemma IdGuardNeverFires(id: Option<string>)
    ensures !IdGuardAsWritten(id)
  {
  }
}

=== FILE: java_strings.dfy ===
/**
 * The few java.lang.String operations the core relies on: `split` with a
 * one-character separator, `indexOf`, and the case mappings, restricted to
 * ASCII letters.
 */
module JavaStrings {

  /** `s.indexOf(c)`: the first position of `c`, or -1 when it does not occur. */
  function IndexOf(s: string, c: char): (k: int)
    ensures -1 <= k < |s|
    ensures k == -1 <==> c !in s
    ensures k >= 0 ==> s[k] == c && c !in s[..k]
  {
    if |s| == 0 then -1
    else if s[0] == c then 0
    else
      var k := IndexOf(s[1..], c);
      assert k >= 0 ==> s[1..][..k] == s[1..k + 1];
      if k == -1 then -1 else k + 1
  }

  /** The pieces of `s` between occurrences of `sep`, every empty piece kept. */
  function Pieces(s: string, sep: char): (ps: seq<string>)
    ensures |ps| >= 1
    ensures forall i :: 0 <= i < |ps| ==> sep !in ps[i]
    decreases |s|
  {
    if |s| == 0 then [""]
    else
      var rest := Pieces(s[1..], sep);
      if s[0] == sep then [""] + rest
      else [[s[0]] + rest[0]] + rest[1..]
  }

  /** The inverse of `Pieces`: the pieces glued back with `sep` between them. */
  function Join(ps: seq<string>, sep: char): string
    decreases |ps|
  {
    if |ps| == 0 then ""
    else if |ps| == 1 then ps[0]
    else ps[0] + [sep] + Join(ps[1..], sep)
  }

  /** Cutting at every separator and gluing back loses nothing. */
  lemma {:induction false} JoinPieces(s: string, sep: char)
    ensures Join(Pieces(s, sep), sep) == s
    decreases |s|
  {
    if |s| > 0 {
      var rest := Pieces(s[1..], sep);
      JoinPieces(s[1..], sep);
      if s[0] == sep {
        assert Pieces(s, sep)[1..] == rest;
        assert s == [sep] + s[1..];
      } else {
        var ps := Pieces(s, sep);
        assert ps[1..] == rest[1..];
        if |rest| == 1 {
          assert s == [s[0]] + s[1..];
        } else {
          assert Join(rest, sep) == rest[0] + [sep] + Join(rest[1..], sep);
          assert s == [s[0]] + s[1..];
        }
      }
    }
  }

  /** A string without the separator is a single piece. */
  lemma {:induction false} PiecesWithoutSeparator(s: string, sep: char)
    requires sep !in s
    ensures Pieces(s, sep) == [s]
    decreases |s|
  {
    if |s| > 0 {
      PiecesWithoutSeparator(s[1..], sep);
      assert s == [s[0]] + s[1..];
    }
  }

  /** The first piece ends at the first separator; the rest are the pieces after it. */
  lemma {:induction false} PiecesAtFirstSeparator(a: string, b: string, sep: char)
    requires sep !in a
    ensures Pieces(a + [sep] + b, sep) == [a] + Pieces(b, sep)
    decreases |a|
  {
    var s := a + [sep] + b;
    if |a| == 0 {
      assert s[1..] == b;
    } else {
      assert s[1..] == a[1..] + [sep] + b;
      PiecesAtFirstSeparator(a[1..], b, sep);
      assert [s[0]] + a[1..] == a;
    }
  }

  /** Java's `split(regex)` with limit 0 removes the empty pieces at the end. */
  function DropTrailingEmpty(ps: seq<string>): (r: seq<string>)
    ensures |r| <= |ps| && r == ps[..|r|]
    ensures |r| > 0 ==> r[|r| - 1] != ""
    ensures forall i :: |r| <= i < |ps| ==> ps[i] == ""
  {
    if |ps| == 0 then []
    else if ps[|ps| - 1] == "" then DropTrailingEmpty(ps[..|ps| - 1])
    else ps
  }

  /**
   * `s.split(sep)` for a separator that is not a regular-expression
   * metacharacter: no occurrence gives the whole input as the only element
   * (even when it is empty); otherwise the pieces, trailing empties removed.
   */
  function Split(s: string, sep: char): (parts: seq<string>)
    ensures forall i :: 0 <= i < |parts| ==> sep !in parts[i]
    ensures sep !in s ==> parts == [s]
    ensures sep in s ==> |parts| <= |Pieces(s, sep)| && parts == Pieces(s, sep)[..|parts|]
    ensures sep in s ==> forall i :: |parts| <= i < |Pieces(s, sep)| ==> Pieces(s, sep)[i] == ""
    ensures sep in s && |parts| > 0 ==> parts[|parts| - 1] != ""
  {
    if sep !in s then [s] else DropTrailingEmpty(Pieces(s, sep))
  }

  /** With two or more parts, the first is the text before the first separator. */
  lemma SplitFirstPart(s: string, sep: char)
    requires |Split(s, sep)| >= 2
    ensures sep in s
    ensures Split(s, sep)[0] == s[..IndexOf(s, sep)]
  {
    assert sep in s;
    var k := IndexOf(s, sep);
    var a, b := s[..k], s[k + 1..];
    CutAt(s, k);
    PiecesAtFirstSeparator(a, b, sep);
  }

  /** A string is the text before position `k`, the character there, and the text after. */
  lemma CutAt(s: string, k: int)
    requires 0 <= k < |s|
    ensures s == s[..k] + [s[k]] + s[k + 1..]
  {
  }

  /** `a:b` with separator-free `a` and a non-empty separator-free `b` splits into exactly `[a, b]`. */
  lemma SplitTwo(a: string, b: string, sep: char)
    requires sep !in a && sep !in b && b != ""
    ensures Split(a + [sep] + b, sep) == [a, b]
  {
    PiecesAtFirstSeparator(a, b, sep);
    PiecesWithoutSeparator(b, sep);
    assert (a + [sep] + b)[|a|] == sep;
  }

  /**
   * A separator directly followed by another or by the end leaves an empty
   * second piece, which split either drops or keeps as an empty part.
   */
  lemma SplitEmptySecondPart(a: string, rest: string, sep: char)
    requires sep !in a
    requires rest == "" || rest[0] == sep
    ensures |Split(a + [sep] + rest, sep)| >= 2 ==> Split(a + [sep] + rest, sep)[1] == ""
  {
    var s := a + [sep] + rest;
    assert s[|a|] == sep;
    PiecesAtFirstSeparator(a, rest, sep);
    if rest != "" {
      assert Pieces(rest, sep) == [""] + Pieces(rest[1..], sep);
    }
  }

  /** Whatever follows a second separator leaves the first two parts alone. */
  lemma SplitIgnoresTail(a: string, b: string, rest: string, sep: char)
    requires sep !in a && sep !in b && b != ""
    ensures |Split(a + [sep] + b + [sep] + rest, sep)| >= 2
    ensures Split(a + [sep] + b + [sep] + rest, sep)[..2] == [a, b]
  {
    var s := a + [sep] + b + [sep] + rest;
    assert s == a + [sep] + (b + [sep] + rest);
    assert s[|a|] == sep;
    PiecesAtFirstSeparator(a, b + [sep] + rest, sep);
    PiecesAtFirstSeparator(b, rest, sep);
    var ps := Pieces(s, sep);
    assert ps == [a, b] + Pieces(rest, sep);
    assert ps[1] == b;
  }

  predicate IsUpperAscii(c: char) {
    'A' <= c <= 'Z'
  }

  predicate IsLowerAscii(c: char) {
    'a' <= c <= 'z'
  }

  /** `Character.toUpperCase` on ASCII; every other character is left as it is. */
  function UpperChar(c: char): char {
    if IsLowerAscii(c) then (c as int - 32) as char else c
  }

  /** `Character.toLowerCase` on ASCII; every other character is left as it is. */
  function LowerChar(c: char): char {
    if IsUpperAscii(c) then (c as int + 32) as char else c
  }

  /** `s.toUpperCase()` */
  function ToUpperCase(s: string): (r: string)
    ensures |r| == |s|
    ensures forall i :: 0 <= i < |s| ==> !IsLowerAscii(r[i])
    ensures EqualsIgnoreCase(s, r)
  {
    seq(|s|, i requires 0 <= i < |s| => UpperChar(s[i]))
  }

  /** `s.toLowerCase()` */
  function ToLowerCase(s: string): (r: string)
    ensures |r| == |s|
    ensures forall i :: 0 <= i < |s| ==> !IsUpperAscii(r[i])
    ensures EqualsIgnoreCase(s, r)
  {
    seq(|s|, i requires 0 <= i < |s| => LowerChar(s[i]))
  }

  /** Two characters are the same letter, possibly in different case. */
  predicate SameIgnoringCase(a: char, b: char) {
    a == b || (IsLowerAscii(a) && b as int == a as int - 32) || (IsUpperAscii(a) && b as int == a as int + 32)
  }

  /** `a.equalsIgnoreCase(b)` over ASCII. */
  predicate EqualsIgnoreCase(a: string, b: string) {
    |a| == |b| && forall i :: 0 <= i < |a| ==> SameIgnoringCase(a[i], b[i])
  }

  /** Upper-casing hits an all-capitals word exactly on its case-insensitive spellings. */
  lemma UpperCaseMatchesIgnoringCase(t: string, word: string)
    requires forall i :: 0 <= i < |word| ==> IsUpperAscii(word[i])
    ensures ToUpperCase(t) == word <==> EqualsIgnoreCase(t, word)
  {
    if EqualsIgnoreCase(t, word) {
      assert forall i :: 0 <= i < |t| ==> ToUpperCase(t)[i] == word[i];
    }
    if ToUpperCase(t) == word {
      assert forall i :: 0 <= i < |t| ==> UpperChar(t[i]) == word[i];
    }
  }

  /** Lower-casing a string that has no capitals changes nothing. */
  lemma LowerCaseOfLowerCase(s: string)
    requires forall i :: 0 <= i < |s| ==> !IsUpperAscii(s[i])
    ensures ToLowerCase(s) == s
  {
  }

  /** Lower-casing twice is the same as lower-casing once. */
  lemma LowerCaseIdempotent(s: string)
    ensures ToLowerCase(ToLowerCase(s)) == ToLowerCase(s)
  {
    LowerCaseOfLowerCase(ToLowerCase(s));
  }

  /** Java `int` arithmetic: the value of `x` wrapped into the signed 32-bit range. */
  function Int32(x: int): (r: int)
    ensures -0x8000_0000 <= r < 0x8000_0000
    ensures (x - r) % 0x1_0000_0000 == 0
  {
    var m := x % 0x1_0000_0000;
    if m >= 0x8000_0000 then m - 0x1_0000_0000 else m
  }

  /**
   * The UTF-16 code units of one character, as Java stores it: a character
   * beyond U+FFFF becomes its high and low surrogate.
   */
  function CodeUnits(c: char): (units: seq<int>)
    ensures 1 <= |units| <= 2
    ensures forall i :: 0 <= i < |units| ==> 0 <= units[i] < 0x1_0000
    ensures |units| == 1 <==> c as int < 0x1_0000
    ensures |units| == 1 ==> units[0] == c as int
    ensures |units| == 2 ==> 0xD800 <= units[0] < 0xDC00 <= units[1] < 0xE000
  {
    var n := c as int;
    if n < 0x1_0000 then [n]
    else [0xD800 + (n - 0x1_0000) / 0x400, 0xDC00 + (n - 0x1_0000) % 0x400]
  }

  /** The UTF-16 encoding of a string: the code units Java's `String` holds. */
  function Utf16(s: string): (units: seq<int>)
    ensures |s| <= |units| <= 2 * |s|
    ensures forall i :: 0 <= i < |units| ==> 0 <= units[i] < 0x1_0000
  {
    if |s| == 0 then [] else Utf16(s[..|s| - 1]) + CodeUnits(s[|s| - 1])
  }

  /** The surrogate pair decodes back to the character: nothing is lost by the encoding. */
  lemma SurrogatesDecode(c: char)
    requires c as int >= 0x1_0000
    ensures (CodeUnits(c)[0] - 0xD800) * 0x400 + (CodeUnits(c)[1] - 0xDC00) + 0x1_0000 == c as int
  {
    var n := c as int - 0x1_0000;
    assert n == (n / 0x400) * 0x400 + n % 0x400;
  }

  /** A string inside the Basic Multilingual Plane is its own UTF-16 encoding, one code unit per character. */
  lemma {:induction false} Utf16OfBmp(s: string)
    requires forall i :: 0 <= i < |s| ==> s[i] as int < 0x1_0000
    ensures |Utf16(s)| == |s|
    ensures forall i :: 0 <= i < |s| ==> Utf16(s)[i] == s[i] as int
  {
    if |s| > 0 {
      var init := s[..|s| - 1];
      Utf16OfBmp(init);
      assert forall i :: 0 <= i < |init| ==> init[i] == s[i];
    }
  }

  /** Java's hash loop from the running value `h`: `h = 31 * h + unit` for each code unit in turn, in 32-bit arithmetic. */
  function HashFrom(h: int, units: seq<int>): (r: int)
    requires -0x8000_0000 <= h < 0x8000_0000
    ensures -0x8000_0000 <= r < 0x8000_0000
    decreases |units|
  {
    if |units| == 0 then h else HashFrom(Int32(31 * h + units[0]), units[1..])
  }

  /** `s.hashCode()`: the hash loop over the string's UTF-16 code units, starting from 0. */
  function StringHash(s: string): (h: int)
    ensures -0x8000_0000 <= h < 0x8000_0000
    ensures s == "" ==> h == 0
  {
    HashFrom(0, Utf16(s))
  }

  /** Encoding a string with one more character appends that character's code units. */
  lemma Utf16Snoc(s: string, c: char)
    ensures Utf16(s + [c]) == Utf16(s) + CodeUnits(c)
  {
    assert (s + [c])[..|s|] == s;
  }

  /** Running the loop over two stretches of code units is running it over the first, then the second. */
  lemma {:induction false} HashFromAppend(h: int, a: seq<int>, b: seq<int>)
    requires -0x8000_0000 <= h < 0x8000_0000
    ensures HashFrom(h, a + b) == HashFrom(HashFrom(h, a), b)
    decreases |a|
  {
    if |a| == 0 {
      assert a + b == b;
    } else {
      assert (a + b)[1..] == a[1..] + b;
      HashFromAppend(Int32(31 * h + a[0]), a[1..], b);
    }
  }

  /** Appending a character continues the hash over that character's code units. */
  lemma StringHashSnoc(s: string, c: char)
    ensures StringHash(s + [c]) == HashFrom(StringHash(s), CodeUnits(c))
  {
    Utf16Snoc(s, c);
    HashFromAppend(0, Utf16(s), CodeUnits(c));
  }

  /** Appending a character of the Basic Multilingual Plane continues the hash with its code. */
  lemma StringHashAppend(s: string, c: char)
    requires c as int < 0x1_0000
    ensures StringHash(s + [c]) == Int32(31 * StringHash(s) + c as int)
  {
    StringHashSnoc(s, c);
    var h := Int32(31 * StringHash(s) + c as int);
    assert HashFrom(StringHash(s), [c as int]) == HashFrom(h, []);
  }

  /** Appending a character beyond U+FFFF continues the hash with its two surrogates in turn. */
  lemma StringHashAppendSupplementary(s: string, c: char)
    requires c as int >= 0x1_0000
    ensures var cu := CodeUnits(c);
            StringHash(s + [c]) == Int32(31 * Int32(31 * StringHash(s) + cu[0]) + cu[1])
  {
    StringHashSnoc(s, c);
    var cu := CodeUnits(c);
    var h1 := Int32(31 * StringHash(s) + cu[0]);
    var h2 := Int32(31 * h1 + cu[1]);
    assert cu[1..] == [cu[1]];
    assert HashFrom(StringHash(s), cu) == HashFrom(h1, [cu[1]]);
    assert HashFrom(h1, [cu[1]]) == HashFrom(h2, []);
  }

  /** A character outside the Basic Multilingual Plane hashes as its surrogate pair: U+1F600 is 0xD83D, 0xDE00. */
  lemma SupplementaryCharacterHash()
    ensures StringHash("\U{1F600}") == 31 * 0xD83D + 0xDE00
  {
    var c := '\U{1F600}';
    StringHashAppendSupplementary("", c);
    assert "" + [c] == "\U{1F600}";
    assert CodeUnits(c) == [0xD83D, 0xDE00];
    assert Int32(31 * 0 + 0xD83D) == 0xD83D;
    assert Int32(31 * 0xD83D + 0xDE00) == 31 * 0xD83D + 0xDE00;
  }
}

=== FILE: post_handlers.dfy ===
/**
 * BlogPostController: the `/blogposts` resource. A handler takes the store
 * and the request's parts and gives back its result together with the store
 * as it is afterwards. The fresh id and the current time a handler would
 * draw are parameters.
 */
module PostHandlers {
  import opened Base
  import opened Documents
  import opened DocumentStore
  import opened SortFilters
  import opened Http
  import Posts
  import PostRepository

  /** A handler's result and the store it leaves behind. */
  datatype Outcome<T> = Outcome(result: Result<Reply<T>>, store: Store)

  /** Answer 200 with the value, or pass the failure on. */
  function OkWith<T>(r: Result<T>): (out: Result<Reply<T>>)
    ensures out.Ok? <==> r.Ok?
    ensures r.Ok? ==> out.value == Reply(StatusOk, Some(r.value), None)
    ensures r.Err? ==> out.failure == r.failure
  {
    match r
    case Ok(v) => Ok(Reply(StatusOk, Some(v), None))
    case Err(f) => Err(f)
  }

  /** `GET /blogposts`: the filtered, sorted, paged list, read only. */
  function GetAll(s: Store, f: SortFilter, scan: seq<Id>): (out: Outcome<seq<Posts.Post>>)
    ensures out.store == s
    ensures out.result.Ok? <==> PostRepository.GetAll(s, f, scan).Ok?
    ensures out.result.Ok? ==> out.result.value.status == StatusOk
    ensures out.result.Ok? ==> out.result.value.body == Some(PostRepository.GetAll(s, f, scan).value)
    ensures out.result.Err? ==> out.result.failure == PostRepository.GetAll(s, f, scan).failure
    ensures out.result.Ok? ==> forall p :: p in out.result.value.body.value ==> PostRepository.Accepts(f, p)
  {
    Outcome(OkWith(PostRepository.GetAll(s, f, scan)), s)
  }

  /** `GET /blogposts/{id}`: the stored post, or 404 when there is none. */
  function GetBlogPost(s: Store, id: Option<Id>): (out: Outcome<Posts.Post>)
    ensures out.store == s
    ensures id.None? ==> out.result == Err(NullArgument)
    ensures id.Some? && Lookup(s, PostRepository.Index, PostRepository.DocType, id.value).None?
            ==> out.result == Err(NotFound)
    ensures out.result.Ok? ==> out.result.value.status == StatusOk
    ensures out.result.Ok? ==> id.Some? && Lookup(s, PostRepository.Index, PostRepository.DocType, id.value).Some?
                               && out.result.value.body.Some?
                               && DecodePost(Lookup(s, PostRepository.Index, PostRepository.DocType, id.value).value)
                                  == Ok(out.result.value.body.value)
    ensures id.Some? && Lookup(s, PostRepository.Index, PostRepository.DocType, id.value).Some?
            && DecodePost(Lookup(s, PostRepository.Index, PostRepository.DocType, id.value).value).Ok?
            ==> out.result == Ok(Reply(StatusOk, Some(DecodePost(Lookup(s, PostRepository.Index, PostRepository.DocType, id.value).value).value), None))
    ensures PostRepository.GetById(s, id).Err? ==> out.result == Err(PostRepository.GetById(s, id).failure)
  {
    if IdGuardAsWritten(id) then Outcome(Err(BadRequest), s)
    else match PostRepository.GetById(s, id)
      case Err(f) => Outcome(Err(f), s)
      case Ok(None) => Outcome(Err(NotFound), s)
      case Ok(Some(p)) => Outcome(Ok(Reply(StatusOk, Some(p), None)), s)
  }

  /** The post `createBlogPost` builds: the request text, the creation time and the fresh id, no author. */
  function NewPostFor(text: string, newId: Id, now: int): (p: Posts.Post)
    ensures p == Posts.Post(Some(newId), Some(now), Some(text), None)
  {
    Posts.Build(Posts.WithId(Posts.WithTimestamp(Posts.WithBody(Posts.ABlogPost(), Some(text)), Some(now)), Some(newId)))
  }

  /**
   * `POST /blogposts/`: any text, empty included, is stored as a new post
   * under the fresh id; the answer is 201 with the new id as location.
   */
  function CreateBlogPost(s: Store, text: string, newId: Id, now: int): (out: Outcome<Posts.Post>)
    ensures out.result == Ok(Reply(StatusCreated, None, Some(newId)))
    ensures Lookup(out.store, PostRepository.Index, PostRepository.DocType, newId)
            == Some(EncodePost(Posts.Post(Some(newId), Some(now), Some(text), None)))
    ensures SameElsewhere(s, out.store, PostRepository.Index, PostRepository.DocType, newId)
  {
    match PostRepository.Create(s, NewPostFor(text, newId, now))
    case Ok((t, created)) => Outcome(Ok(Reply(StatusCreated, None, Some(created.id.value))), t)
    case Err(f) => Outcome(Err(f), s)
  }

  /** A created post can be read back at its location. */
  lemma CreatedPostIsServed(s: Store, text: string, newId: Id, now: int)
    ensures var out := CreateBlogPost(s, text, newId, now);
            GetBlogPost(out.store, out.result.value.location).result
            == Ok(Reply(StatusOk, Some(Posts.Post(Some(newId), Some(now), Some(text), None)), None))
  {
    PostRoundTrip(Posts.Post(Some(newId), Some(now), Some(text), None));
  }

  /**
   * `PUT /blogposts/{id}` as written: the post handed to the repository is
   * built from the body text alone, so its id is null and the repository's
   * existence check rejects it before anything is written, whatever the
   * path id and whatever is stored.
   */
  function UpdateBlogPost(s: Store, id: Option<Id>, text: string): (out: Outcome<Posts.Post>)
    ensures out.store == s
    ensures out.result == Err(NullArgument)
  {
    if IdGuardAsWritten(id) then Outcome(Err(BadRequest), s)
    else
      var post := Posts.Build(Posts.WithBody(Posts.ABlogPost(), Some(text)));
      match PostRepository.Update(s, post)
      case Ok((t, updated)) => Outcome(Ok(Reply(StatusOk, Some(updated), None)), t)
      case Err(f) => Outcome(Err(f), s)
  }

  /** Even for a stored post, an update as written ends in a server error and leaves the post as it was. */
  lemma UpdateOfStoredPostFails(s: Store, id: Id, text: string)
    requires Lookup(s, PostRepository.Index, PostRepository.DocType, id).Some?
    ensures StatusOfAsWritten(UpdateBlogPost(s, Some(id), text).result) == StatusServerError
    ensures Lookup(UpdateBlogPost(s, Some(id), text).store, PostRepository.Index, PostRepository.DocType, id)
            == Lookup(s, PostRepository.Index, PostRepository.DocType, id)
  {
  }

  /**
   * Corrected `PUT /blogposts/{id}`: the path id is carried into the post,
   * so only its body is sent. An absent post is 404 and a stored document
   * that does not decode is a server error; either way nothing changes.
   */
  function UpdateBlogPostForwardingId(s: Store, id: Option<Id>, text: string): (out: Outcome<Posts.Post>)
    ensures id.None? ==> out.result == Err(NullArgument) && out.store == s
    ensures id.Some? && Lookup(s, PostRepository.Index, PostRepository.DocType, id.value).None?
            ==> out.result == Err(NotFound) && out.store == s
    ensures out.result.Ok? ==> out.result.value == Reply(StatusOk, Some(Posts.Post(id, None, Some(text), None)), None)
    ensures out.result.Ok? <==> id.Some? && Lookup(s, PostRepository.Index, PostRepository.DocType, id.value).Some?
                                && DecodePost(Lookup(s, PostRepository.Index, PostRepository.DocType, id.value).value).Ok?
    ensures id.Some? && Lookup(s, PostRepository.Index, PostRepository.DocType, id.value).Some?
            && DecodePost(Lookup(s, PostRepository.Index, PostRepository.DocType, id.value).value).Err?
            ==> out.result == Err(MalformedDocument)
    ensures out.result.Ok? ==> SameElsewhere(s, out.store, PostRepository.Index, PostRepository.DocType, id.value)
    ensures out.result.Err? ==> out.store == s
  {
    if IdGuardAsWritten(id) then Outcome(Err(BadRequest), s)
    else
      var post := Posts.Build(Posts.WithBody(Posts.WithId(Posts.ABlogPost(), id), Some(text)));
      match PostRepository.Update(s, post)
      case Ok((t, updated)) => Outcome(Ok(Reply(StatusOk, Some(updated), None)), t)
      case Err(f) => Outcome(Err(f), s)
  }

  /**
   * The corrected update replaces the body and keeps the stored id,
   * timestamp and author: the sent document holds only the id and body.
   */
  lemma CorrectedUpdateKeepsOtherFields(s: Store, id: Id, text: string, p: Posts.Post)
    requires PostRepository.GetById(s, Some(id)) == Ok(Some(p))
    ensures UpdateBlogPostForwardingId(s, Some(id), text).result.Ok?
    ensures PostRepository.GetById(UpdateBlogPostForwardingId(s, Some(id), text).store, Some(id))
            == Ok(Some(p.(id := Some(id), body := Some(text))))
  {
    var before := Lookup(s, PostRepository.Index, PostRepository.DocType, id).value;
    var sent := EncodePost(Posts.Post(Some(id), None, Some(text), None));
    var after := before + sent;
    var t := UpdateBlogPostForwardingId(s, Some(id), text).store;
    assert Lookup(t, PostRepository.Index, PostRepository.DocType, id) == Some(after);
    assert ReadText(before, IdField) == Ok(p.id);
    assert ReadNumber(before, TimestampField) == Ok(p.timestamp);
    assert ReadText(before, UserIdField) == Ok(p.userId);
    assert ReadText(after, IdField) == Ok(Some(id));
    assert ReadNumber(after, TimestampField) == Ok(p.timestamp);
    assert ReadText(after, BodyField) == Ok(Some(text));
    assert ReadText(after, UserIdField) == Ok(p.userId);
  }

  /** `DELETE /blogposts/{id}`: 204 whether or not the post existed, and the post is gone. */
  function DeleteBlogPost(s: Store, id: Option<Id>): (out: Outcome<Posts.Post>)
    ensures id.None? ==> out.result == Err(NullArgument) && out.store == s
    ensures id.Some? ==> out.result == Ok(Reply(StatusNoContent, None, None))
    ensures id.Some? ==> Lookup(out.store, PostRepository.Index, PostRepository.DocType, id.value).None?
    ensures id.Some? ==> SameElsewhere(s, out.store, PostRepository.Index, PostRepository.DocType, id.value)
  {
    if IdGuardAsWritten(id) then Outcome(Err(BadRequest), s)
    else match PostRepository.Delete(s, id)
      case Ok(t) => Outcome(Ok(Reply(StatusNoContent, None, None)), t)
      case Err(f) => Outcome(Err(f), s)
  }

  /** After a delete the post reads as not found, and a second delete changes nothing. */
  lemma DeletedPostIsNotFound(s: Store, id: Id)
    ensures GetBlogPost(DeleteBlogPost(s, Some(id)).store, Some(id)).result == Err(NotFound)
    ensures DeleteBlogPost(DeleteBlogPost(s, Some(id)).store, Some(id)) == DeleteBlogPost(s, Some(id))
  {
    PostRepository.DeleteIdempotent(s, id);
  }
}

=== FILE: post_repository.dfy ===
/**
 * BlogPostDao: the post repository over the document store, and the
 * translation of a BlogPostSortFilter into a store query and sorts.
 */
module PostRepository {
  import opened Base
  import opened Documents
  import opened Queries
  import opened DocumentStore
  import opened SortColumns
  import opened SortFilters
  import Posts

  const Index := "microblog"
  const DocType := "blogpost"

  /** The exact-match sub-field sorted on instead of the analysed `userId` text field. */
  const UserIdKeyword := "userId.keyword"

  // ---------------------------------------------------------------- reads

  /**
   * `getById`: a null id is rejected; no index, no document or an empty
   * source is "no post"; otherwise the stored document, decoded.
   */
  function GetById(s: Store, id: Option<Id>): (r: Result<Option<Posts.Post>>)
    ensures id.None? <==> r == Err(NullArgument)
    ensures id.Some? ==> (r == Ok(None) <==> Lookup(s, Index, DocType, id.value).None?)
    ensures forall p :: r == Ok(Some(p)) <==>
              id.Some? && Lookup(s, Index, DocType, id.value).Some?
              && DecodePost(Lookup(s, Index, DocType, id.value).value) == Ok(p)
    ensures r.Err? ==> r.failure in {NullArgument, MalformedDocument}
  {
    if id.None? then Err(NullArgument)
    else
      var resp := DocumentStore.GetById(s, Index, DocType, id.value);
      if resp.None? || resp.value.source.None? then Ok(None)
      else match DecodePost(resp.value.source.value)
        case Ok(p) => Ok(Some(p))
        case Err(f) => Err(f)
  }

  // ------------------------------------------------------ filter and sorts

  predicate HasUserIds(f: SortFilter) {
    f.userIds.Some? && |f.userIds.value| > 0
  }

  predicate HasTimeRange(f: SortFilter) {
    f.fromDateTime.Some? || f.toDateTime.Some?
  }

  /**
   * `getQueryBuilder`: a user-id set clause when the filter names users, a
   * timestamp range clause when either bound is given (each bound inclusive
   * and only when present), all under one constant-score bool query.
   */
  function QueryFor(f: SortFilter): (q: Query)
    ensures q.ConstantScore?
    ensures |q.must| == (if HasUserIds(f) then 1 else 0) + (if HasTimeRange(f) then 1 else 0)
    ensures (exists c :: c in q.must && c.Terms?) <==> HasUserIds(f)
    ensures (exists c :: c in q.must && c.Range?) <==> HasTimeRange(f)
    ensures forall c :: c in q.must && c.Terms? ==> c == Terms(UserIdField, f.userIds.value)
    ensures forall c :: c in q.must && c.Range? ==> c == Range(TimestampField, f.fromDateTime, f.toDateTime)
  {
    var users := if HasUserIds(f) then [Terms(UserIdField, f.userIds.value)] else [];
    var range := if HasTimeRange(f) then [Range(TimestampField, f.fromDateTime, f.toDateTime)] else [];
    var must := users + range;
    assert HasUserIds(f) ==> must[0] in must;
    assert HasTimeRange(f) ==> must[|must| - 1] in must;
    ConstantScore(must)
  }

  /** Which posts a filter is meant to select, stated on the post itself. */
  predicate Accepts(f: SortFilter, p: Posts.Post) {
    && (HasUserIds(f) ==> p.userId.Some? && p.userId.value in f.userIds.value)
    && (HasTimeRange(f) ==> p.timestamp.Some?)
    && (f.fromDateTime.Some? && p.timestamp.Some? ==> f.fromDateTime.value <= p.timestamp.value)
    && (f.toDateTime.Some? && p.timestamp.Some? ==> p.timestamp.value <= f.toDateTime.value)
  }

  /** The store query selects a stored post exactly when the filter accepts it. */
  lemma QuerySelectsAcceptedPosts(f: SortFilter, d: Doc, p: Posts.Post)
    requires DecodePost(d) == Ok(p)
    ensures Matches(QueryFor(f), d) <==> Accepts(f, p)
  {
    var q := QueryFor(f);
    assert ReadText(d, UserIdField) == Ok(p.userId);
    assert ReadNumber(d, TimestampField) == Ok(p.timestamp);
    if HasUserIds(f) {
      assert q.must[0] == Terms(UserIdField, f.userIds.value);
    }
    if HasTimeRange(f) {
      assert q.must[|q.must| - 1] == Range(TimestampField, f.fromDateTime, f.toDateTime);
    }
  }

  /** `aSortBuilder`: only the exact field `userId` is re-pointed at its keyword sub-field. */
  function ASortBuilder(c: SortColumn): (s: FieldSort)
    ensures c.column == UserIdField ==> s.field == UserIdKeyword
    ensures c.column != UserIdField ==> s.field == c.column
    ensures SortOrderValueOf(Name(c.direction)) == Some(s.order)
  {
    var field := if c.column == UserIdField then c.column + ".keyword" else c.column;
    FieldSort(field, SortOrderValueOf(Name(c.direction)).value)
  }

  /** Parse each sort parameter and translate it, in order; the first parse failure aborts. */
  function BuildSorts(params: seq<string>): (r: Result<seq<FieldSort>>)
    ensures r.Ok? <==> forall i :: 0 <= i < |params| ==> Parse(params[i]).Ok?
    ensures r.Ok? ==> |r.value| == |params|
    ensures r.Ok? ==> forall i :: 0 <= i < |params| ==> r.value[i] == ASortBuilder(Parse(params[i]).value)
    ensures r.Err? ==> r.failure == ParseError
  {
    if |params| == 0 then Ok([])
    else match Parse(params[0])
      case Err(e) => Err(e)
      case Ok(c) =>
        match BuildSorts(params[1..])
        case Err(e) => Err(e)
        case Ok(rest) => Ok([ASortBuilder(c)] + rest)
  }

  /** `getSortBuilders`: no sort list, or an empty one, means no sorts. */
  function SortBuilders(f: SortFilter): (r: Result<seq<FieldSort>>)
    ensures f.sort.None? || f.sort == Some([]) ==> r == Ok([])
    ensures f.sort.Some? ==> (r.Ok? <==> forall i :: 0 <= i < |f.sort.value| ==> Parse(f.sort.value[i]).Ok?)
    ensures r.Ok? && f.sort.Some? ==> |r.value| == |f.sort.value|
    ensures r.Ok? && f.sort.Some? ==>
              forall i :: 0 <= i < |f.sort.value| ==> r.value[i] == ASortBuilder(Parse(f.sort.value[i]).value)
    ensures r.Err? ==> r.failure == ParseError
  {
    if f.sort.None? || |f.sort.value| == 0 then Ok([]) else BuildSorts(f.sort.value)
  }

  /** The search `getAll` sends, for a given page size. */
  function ListRequest(f: SortFilter, size: Option<int>, sorts: seq<FieldSort>): SearchRequest {
    PrepareSearch(Index, DocType, f.offset, size, QueryFor(f), sorts)
  }

  /**
   * Search with the filter's query and sorts and the given page size, then
   * decode the hits: no response or no hits at all is the empty list.
   */
  function ListPosts(s: Store, f: SortFilter, size: Option<int>, scan: seq<Id>): (r: Result<seq<Posts.Post>>)
    ensures SortBuilders(f).Err? ==> r == Err(ParseError)
    ensures SortBuilders(f).Ok? && Index !in s.indices ==> r == Ok([])
    ensures r.Ok? ==> forall p :: p in r.value ==> Accepts(f, p)
  {
    var sorts :- SortBuilders(f);
    var req := ListRequest(f, size, sorts);
    var resp :- Execute(s, req, scan);
    if resp.None? || resp.value.totalHits == 0 then Ok([])
    else
      var r := DecodeEach(resp.value.hits, DecodePost);
      assert r.Ok? ==> forall p :: p in r.value ==> Accepts(f, p) by {
        if r.Ok? {
          forall p | p in r.value
            ensures Accepts(f, p)
          {
            var i :| 0 <= i < |r.value| && r.value[i] == p;
            QuerySelectsAcceptedPosts(f, resp.value.hits[i], p);
          }
        }
      }
      r
  }

  /** `getAll`: the filter's own page size, or the client's default. */
  function GetAll(s: Store, f: SortFilter, scan: seq<Id>): (r: Result<seq<Posts.Post>>)
    ensures SortBuilders(f).Err? ==> r == Err(ParseError)
    ensures SortBuilders(f).Ok? && Index !in s.indices ==> r == Ok([])
    ensures r.Ok? ==> forall p :: p in r.value ==> Accepts(f, p)
  {
    ListPosts(s, f, f.size, scan)
  }

  /** No response or zero total hits give the empty list; otherwise one post per hit, in hit order. */
  lemma GetAllOnePostPerHit(s: Store, f: SortFilter, scan: seq<Id>)
    requires SortBuilders(f).Ok?
    requires Execute(s, ListRequest(f, f.size, SortBuilders(f).value), scan).Ok?
    ensures var resp := Execute(s, ListRequest(f, f.size, SortBuilders(f).value), scan).value;
            var r := GetAll(s, f, scan);
            && (resp.None? || resp.value.totalHits == 0 ==> r == Ok([]))
            && (resp.Some? && resp.value.totalHits > 0 && r.Ok? ==>
                  |r.value| == |resp.value.hits|
                  && forall i :: 0 <= i < |r.value| ==> DecodePost(resp.value.hits[i]) == Ok(r.value[i]))
  {
  }

  /** The posts stored under their keys that the decoder can read. */
  function StoredPosts(s: Store): set<Posts.Post> {
    var docs := DocsOf(s, Index, DocType);
    set k | k in docs && DecodePost(docs[k]).Ok? :: DecodePost(docs[k]).value
  }

  /** A post is stored exactly when some stored document decodes to it. */
  lemma StoredPostsMembers(s: Store, p: Posts.Post)
    ensures p in StoredPosts(s) <==>
              exists k :: k in DocsOf(s, Index, DocType) && DecodePost(DocsOf(s, Index, DocType)[k]) == Ok(p)
  {
    var docs := DocsOf(s, Index, DocType);
    if exists k :: k in docs && DecodePost(docs[k]) == Ok(p) {
      var k :| k in docs && DecodePost(docs[k]) == Ok(p);
      assert DecodePost(docs[k]).value == p;
    }
  }

  /**
   * Among documents that all decode, and with every id visited, the
   * matches of a filter's query decode to exactly the stored posts the
   * filter accepts.
   */
  lemma MatchesAreAcceptedPosts(docs: map<Id, Doc>, scan: seq<Id>, f: SortFilter, p: Posts.Post)
    requires forall k :: k in docs ==> k in scan
    ensures var all := Matching(docs, scan, QueryFor(f));
            (exists i :: 0 <= i < |all| && DecodePost(all[i]) == Ok(p))
            <==> (exists k :: k in docs && DecodePost(docs[k]) == Ok(p)) && Accepts(f, p)
  {
    var q := QueryFor(f);
    var all := Matching(docs, scan, q);
    if i :| 0 <= i < |all| && DecodePost(all[i]) == Ok(p) {
      MatchingMembers(docs, scan, q, all[i]);
      var k :| k in scan && k in docs && docs[k] == all[i] && Matches(q, all[i]);
      QuerySelectsAcceptedPosts(f, all[i], p);
      assert DecodePost(docs[k]) == Ok(p);
    }
    if k :| k in docs && DecodePost(docs[k]) == Ok(p) && Accepts(f, p) {
      QuerySelectsAcceptedPosts(f, docs[k], p);
      MatchingMembers(docs, scan, q, docs[k]);
      var i :| 0 <= i < |all| && all[i] == docs[k];
      assert DecodePost(all[i]) == Ok(p);
    }
  }

  /** With default paging and no more ids than one default page, the listing is every match, decoded. */
  lemma DefaultListingDecodesAllMatches(s: Store, f: SortFilter, scan: seq<Id>)
    requires Index in s.indices
    requires |scan| <= EsMaxSize
    requires f.offset.None? && f.size.None? && SortBuilders(f).Ok?
    ensures var all := Matching(DocsOf(s, Index, DocType), scan, QueryFor(f));
            GetAll(s, f, scan) == if |all| == 0 then Ok([]) else DecodeEach(all, DecodePost)
  {
    var req := ListRequest(f, f.size, SortBuilders(f).value);
    assert req.from == 0 && req.size == EsMaxSize;
  }

  /** With default paging, the listing has one post per distinct visited id whose document the filter selects. */
  lemma DefaultListingCountsEachPostOnce(s: Store, f: SortFilter, scan: seq<Id>)
    requires Index in s.indices
    requires forall k :: k in DocsOf(s, Index, DocType) ==> DecodePost(DocsOf(s, Index, DocType)[k]).Ok?
    requires |scan| <= EsMaxSize
    requires f.offset.None? && f.size.None? && SortBuilders(f).Ok?
    ensures GetAll(s, f, scan).Ok?
    ensures |GetAll(s, f, scan).value| == |MatchedIds(DocsOf(s, Index, DocType), scan, QueryFor(f))|
  {
    var docs := DocsOf(s, Index, DocType);
    var all := Matching(docs, scan, QueryFor(f));
    DefaultListingDecodesAllMatches(s, f, scan);
    forall i | 0 <= i < |all|
      ensures DecodePost(all[i]).Ok?
    {
      MatchingMembers(docs, scan, QueryFor(f), all[i]);
    }
    MatchingCountsEachIdOnce(docs, scan, QueryFor(f));
  }

  /**
   * With default paging, a store whose post documents all decode and whose
   * visiting order reaches every id, `getAll` lists exactly the stored
   * posts the filter accepts (as long as the store holds no more than one
   * default page).
   */
  lemma GetAllSelectsExactlyAccepted(s: Store, f: SortFilter, scan: seq<Id>)
    requires Index in s.indices
    requires forall k :: k in DocsOf(s, Index, DocType) ==> k in scan
    requires forall k :: k in DocsOf(s, Index, DocType) ==> DecodePost(DocsOf(s, Index, DocType)[k]).Ok?
    requires |scan| <= EsMaxSize
    requires f.offset.None? && f.size.None? && SortBuilders(f).Ok?
    ensures GetAll(s, f, scan).Ok?
    ensures forall p :: p in GetAll(s, f, scan).value <==> p in StoredPosts(s) && Accepts(f, p)
  {
    var docs := DocsOf(s, Index, DocType);
    var all := Matching(docs, scan, QueryFor(f));
    DefaultListingDecodesAllMatches(s, f, scan);
    forall i | 0 <= i < |all|
      ensures DecodePost(all[i]).Ok?
    {
      MatchingMembers(docs, scan, QueryFor(f), all[i]);
    }
    var r := GetAll(s, f, scan);
    forall p
      ensures p in r.value <==> p in StoredPosts(s) && Accepts(f, p)
    {
      MatchesAreAcceptedPosts(docs, scan, f, p);
      StoredPostsMembers(s, p);
      if p in r.value {
        var i :| 0 <= i < |r.value| && r.value[i] == p;
        assert DecodePost(all[i]) == Ok(p);
      }
    }
  }

  // --------------------------------------------------------------- writes

  /**
   * `create`: the whole post is written under its own id and returned
   * unchanged; a post without an id is rejected by the store client
   * before anything is written.
   */
  function Create(s: Store, p: Posts.Post): (r: Result<(Store, Posts.Post)>)
    ensures r.Err? <==> p.id.None?
    ensures r.Err? ==> r.failure == NullArgument
    ensures r.Ok? ==> r.value.1 == p
    ensures r.Ok? ==> Lookup(r.value.0, Index, DocType, p.id.value) == Some(EncodePost(p))
    ensures r.Ok? ==> SameElsewhere(s, r.value.0, Index, DocType, p.id.value)
  {
    var created :- DocumentStore.Create(s, Index, DocType, p.id, Some(EncodePost(p)));
    Ok((created.0, p))
  }

  /** A created post reads back as itself. */
  lemma CreateThenGet(s: Store, p: Posts.Post)
    requires p.id.Some?
    ensures Create(s, p).Ok?
    ensures GetById(Create(s, p).value.0, p.id) == Ok(Some(p))
  {
    PostRoundTrip(p);
  }

  /**
   * `update`: the existence check goes through `getById` (so a null id is
   * rejected there); an absent post is NotFound and nothing is written;
   * otherwise the post's members are merged into the stored document and
   * the post is returned unchanged.
   */
  function Update(s: Store, p: Posts.Post): (r: Result<(Store, Posts.Post)>)
    ensures p.id.None? ==> r == Err(NullArgument)
    ensures p.id.Some? && Lookup(s, Index, DocType, p.id.value).None? ==> r == Err(NotFound)
    ensures r.Ok? <==> p.id.Some? && Lookup(s, Index, DocType, p.id.value).Some?
                       && DecodePost(Lookup(s, Index, DocType, p.id.value).value).Ok?
    ensures r.Ok? ==> r.value.1 == p
    ensures r.Ok? ==> SameElsewhere(s, r.value.0, Index, DocType, p.id.value)
    ensures r.Ok? ==> Lookup(r.value.0, Index, DocType, p.id.value)
                      == Some(Lookup(s, Index, DocType, p.id.value).value + EncodePost(p))
  {
    var existing :- GetById(s, p.id);
    if existing.None? then Err(NotFound)
    else
      match DocumentStore.Update(s, Index, DocType, p.id, Some(EncodePost(p)))
      case Ok(t) => Ok((t, p))
      case Err(e) => Err(e)
  }

  /** `delete`: a null id is rejected; otherwise the store delete runs, present or not. */
  function Delete(s: Store, id: Option<Id>): (r: Result<Store>)
    ensures r.Err? <==> id.None?
    ensures r.Err? ==> r.failure == NullArgument
    ensures r.Ok? ==> Lookup(r.value, Index, DocType, id.value).None?
    ensures r.Ok? ==> SameElsewhere(s, r.value, Index, DocType, id.value)
    ensures r.Ok? && Lookup(s, Index, DocType, id.value).None? ==> r.value == s
  {
    if id.None? then Err(NullArgument)
    else Ok(DeleteById(s, Index, DocType, id.value))
  }

  /** Deleting twice is deleting once, and the post is gone afterwards. */
  lemma DeleteIdempotent(s: Store, id: Id)
    ensures Delete(s, Some(id)).Ok?
    ensures Delete(Delete(s, Some(id)).value, Some(id)) == Delete(s, Some(id))
    ensures GetById(Delete(s, Some(id)).value, Some(id)) == Ok(None)
  {
    DeleteByIdIdempotent(s, Index, DocType, id);
  }

  /** A successful listing is the hits of its search decoded, one post per hit and no hit left out. */
  lemma ListingDecodesHits(s: Store, f: SortFilter, size: Option<int>, scan: seq<Id>)
    requires Index in s.indices
    requires ListPosts(s, f, size, scan).Ok?
    ensures var resp := Execute(s, ListRequest(f, size, SortBuilders(f).value), scan);
            var listed := ListPosts(s, f, size, scan).value;
            && resp.Ok? && resp.value.Some?
            && |listed| == |resp.value.value.hits|
            && forall i :: 0 <= i < |listed| ==> DecodePost(resp.value.value.hits[i]) == Ok(listed[i])
  {
    var resp := Execute(s, ListRequest(f, size, SortBuilders(f).value), scan);
    assert resp.Ok? && resp.value.Some?;
    var hits := resp.value.value.hits;
    assert ListPosts(s, f, size, scan) == if resp.value.value.totalHits == 0 then Ok([]) else DecodeEach(hits, DecodePost);
  }

  /** The offset a listing starts at: the filter's, or 0. */
  function FirstHit(f: SortFilter): nat {
    if f.offset.Some? && f.offset.value >= 0 then f.offset.value else 0
  }

  /** `listed` is the matches from position `from` on, decoded one by one. */
  predicate DecodesWindow(all: seq<Doc>, from: nat, listed: seq<Posts.Post>) {
    forall i :: 0 <= i < |listed| ==> from + i < |all| && DecodePost(all[from + i]) == Ok(listed[i])
  }

  /** A successful listing is the whole window of the matches its request asks for, each decoded. */
  lemma ListingIsWindowOfMatches(s: Store, f: SortFilter, size: Option<int>, scan: seq<Id>)
    requires Index in s.indices
    requires ListPosts(s, f, size, scan).Ok?
    ensures DecodesWindow(Matching(DocsOf(s, Index, DocType), scan, QueryFor(f)), FirstHit(f), ListPosts(s, f, size, scan).value)
    ensures |ListPosts(s, f, size, scan).value|
            == |Page(Matching(DocsOf(s, Index, DocType), scan, QueryFor(f)), FirstHit(f), ListRequest(f, size, SortBuilders(f).value).size)|
  {
    ListingDecodesHits(s, f, size, scan);
    var req := ListRequest(f, size, SortBuilders(f).value);
    var all := Matching(DocsOf(s, Index, DocType), scan, QueryFor(f));
    var hits := Execute(s, req, scan).value.value.hits;
    var listed := ListPosts(s, f, size, scan).value;
    assert WindowAccepted(req.from, req.size);
    assert req.from == FirstHit(f);
    DecodedPage(all, FirstHit(f), req.size, hits, listed);
  }

  /** Posts decoded from a page of the matches are the matches from the page's start on, decoded. */
  lemma DecodedPage(all: seq<Doc>, from: nat, size: nat, hits: seq<Doc>, listed: seq<Posts.Post>)
    requires hits == Page(all, from, size)
    requires |listed| <= |hits|
    requires forall i :: 0 <= i < |listed| ==> DecodePost(hits[i]) == Ok(listed[i])
    ensures DecodesWindow(all, from, listed)
  {
  }

  // ------------------------------------------------- paging window defect

  /**
   * As written: an offset without a size asks for the offset plus the
   * default size, which lies past the store's result window, so every such
   * listing fails.
   */
  lemma OffsetWithoutSizeFails(s: Store, f: SortFilter, scan: seq<Id>)
    requires Index in s.indices
    requires f.offset.Some? && f.offset.value > 0 && f.size.None?
    requires SortBuilders(f).Ok?
    ensures GetAll(s, f, scan) == Err(StoreFailure)
  {
  }

  /** The page size that keeps `offset + size` inside the store's window. */
  function RemainingWindow(offset: Option<int>): (size: int)
    ensures offset.None? ==> size == EsMaxSize
    ensures offset.Some? && 0 <= offset.value <= MaxResultWindow ==> WindowAccepted(offset.value, size)
  {
    if offset.Some? && 0 <= offset.value <= MaxResultWindow then MaxResultWindow - offset.value else EsMaxSize
  }

  /** Corrected listing: without a size, ask for the rest of the window rather than a fixed page. */
  function GetAllWithinWindow(s: Store, f: SortFilter, scan: seq<Id>): (r: Result<seq<Posts.Post>>)
    ensures f.size.Some? || f.offset.None? ==> r == GetAll(s, f, scan)
  {
    ListPosts(s, f, if f.size.Some? then f.size else Some(RemainingWindow(f.offset)), scan)
  }

  /**
   * With the correction, any offset inside the window and no size is
   * accepted, and the listing holds every match from the offset on.
   */
  lemma WithinWindowAcceptsOffsets(s: Store, f: SortFilter, scan: seq<Id>)
    requires f.offset.Some? && 0 <= f.offset.value <= MaxResultWindow && f.size.None?
    requires SortBuilders(f).Ok?
    requires forall k :: k in DocsOf(s, Index, DocType) ==> DecodePost(DocsOf(s, Index, DocType)[k]).Ok?
    requires |scan| <= MaxResultWindow
    ensures GetAllWithinWindow(s, f, scan).Ok?
    ensures Index in s.indices ==>
              var all := Matching(DocsOf(s, Index, DocType), scan, QueryFor(f));
              |GetAllWithinWindow(s, f, scan).value| == if f.offset.value >= |all| || |all| == 0 then 0 else |all| - f.offset.value
    ensures Index in s.indices ==>
              DecodesWindow(Matching(DocsOf(s, Index, DocType), scan, QueryFor(f)), f.offset.value, GetAllWithinWindow(s, f, scan).value)
  {
    var docs := DocsOf(s, Index, DocType);
    var q := QueryFor(f);
    var all := Matching(docs, scan, q);
    var size := Some(RemainingWindow(f.offset));
    var req := ListRequest(f, size, SortBuilders(f).value);
    if Index in s.indices {
      var resp := Execute(s, req, scan);
      assert resp.Ok? && resp.value.Some?;
      var hits := resp.value.value.hits;
      forall i | 0 <= i < |hits|
        ensures DecodePost(hits[i]).Ok?
      {
        MatchingMembers(docs, scan, q, hits[i]);
      }
      ListingIsWindowOfMatches(s, f, size, scan);
    }
  }
}

=== FILE: posts.dfy ===
/**
 * BlogPost: a short text post with an id, a creation timestamp, a body and
 * an optional author, built through BlogPostBuilder and compared field by
 * field.
 */
module Posts {
  import opened Base
  import opened JavaStrings

  /** Only getters are exposed in the source, so a post is an immutable value. */
  datatype Post = Post(id: Option<string>, timestamp: Option<int>, body: Option<string>, userId: Option<string>)

  /** The three-argument constructor, which leaves the id null. */
  function NewPost(timestamp: Option<int>, body: Option<string>, userId: Option<string>): (p: Post)
    ensures p.id.None?
    ensures p.timestamp == timestamp && p.body == body && p.userId == userId
  {
    Post(None, timestamp, body, userId)
  }

  datatype PostBuilder = PostBuilder(id: Option<string>, timestamp: Option<int>, body: Option<string>, userId: Option<string>)

  /** `BlogPostBuilder.aBlogPost()`: nothing supplied yet. */
  function ABlogPost(): (b: PostBuilder)
    ensures b.id.None? && b.timestamp.None? && b.body.None? && b.userId.None?
  {
    PostBuilder(None, None, None, None)
  }

  function WithId(b: PostBuilder, id: Option<string>): (c: PostBuilder)
    ensures c.id == id && c.timestamp == b.timestamp && c.body == b.body && c.userId == b.userId
  {
    b.(id := id)
  }

  function WithTimestamp(b: PostBuilder, timestamp: Option<int>): (c: PostBuilder)
    ensures c.timestamp == timestamp && c.id == b.id && c.body == b.body && c.userId == b.userId
  {
    b.(timestamp := timestamp)
  }

  function WithBody(b: PostBuilder, body: Option<string>): (c: PostBuilder)
    ensures c.body == body && c.id == b.id && c.timestamp == b.timestamp && c.userId == b.userId
  {
    b.(body := body)
  }

  function WithUserId(b: PostBuilder, userId: Option<string>): (c: PostBuilder)
    ensures c.userId == userId && c.id == b.id && c.timestamp == b.timestamp && c.body == b.body
  {
    b.(userId := userId)
  }

  /** `build()`: the three-argument constructor, then the id is assigned. */
  function Build(b: PostBuilder): (p: Post)
    ensures p.id == b.id && p.timestamp == b.timestamp && p.body == b.body && p.userId == b.userId
  {
    var p := NewPost(b.timestamp, b.body, b.userId);
    p.(id := b.id)
  }

  /** Each builder step sets its field; fields never supplied stay null. */
  lemma BuilderSetsSuppliedFields(id: string, timestamp: int, body: string, userId: string)
    ensures Build(WithUserId(WithBody(WithTimestamp(WithId(ABlogPost(), Some(id)), Some(timestamp)), Some(body)), Some(userId)))
            == Post(Some(id), Some(timestamp), Some(body), Some(userId))
    ensures Build(WithBody(ABlogPost(), Some(body))) == Post(None, None, Some(body), None)
  {
  }

  /** `a != null ? a.equals(b) : b == null` */
  predicate NullableEquals<T(==)>(a: Option<T>, b: Option<T>) {
    if a.Some? then b.Some? && a.value == b.value else b.None?
  }

  /** `BlogPost.equals`: id, timestamp, body, then userId, each null-safe. */
  predicate Equals(a: Post, b: Post) {
    if !NullableEquals(a.id, b.id) then false
    else if !NullableEquals(a.timestamp, b.timestamp) then false
    else if !NullableEquals(a.body, b.body) then false
    else NullableEquals(a.userId, b.userId)
  }

  /** The source's equality is exactly equality of all four fields, null equal to null. */
  lemma EqualsIsFieldwise(a: Post, b: Post)
    ensures Equals(a, b) <==> a.id == b.id && a.timestamp == b.timestamp && a.body == b.body && a.userId == b.userId
    ensures Equals(a, b) <==> a == b
  {
  }

  /** `Date.hashCode()`: the two halves of the 64-bit time exclusive-or'ed together. */
  function DateHash(t: int): (h: int)
    ensures -0x8000_0000 <= h < 0x8000_0000
  {
    var x := (t % 0x1_0000_0000_0000_0000) as bv64;
    Int32(((x ^ (x >> 32)) & 0xFFFF_FFFF) as int)
  }

  function HashOfText(s: Option<string>): int {
    if s.Some? then StringHash(s.value) else 0
  }

  /** `BlogPost.hashCode()`: base-31 combination of the same four fields, in `int` arithmetic. */
  function HashCode(p: Post): (h: int)
    ensures -0x8000_0000 <= h < 0x8000_0000
  {
    var h0 := HashOfText(p.id);
    var h1 := Int32(31 * h0 + (if p.timestamp.Some? then DateHash(p.timestamp.value) else 0));
    var h2 := Int32(31 * h1 + HashOfText(p.body));
    Int32(31 * h2 + HashOfText(p.userId))
  }

  /** Equal posts hash alike. */
  lemma HashCodeAgreesWithEquals(a: Post, b: Post)
    requires Equals(a, b)
    ensures HashCode(a) == HashCode(b)
  {
  }
}

=== FILE: queries.dfy ===
/**
 * The part of the document store's query language the repositories build:
 * a constant-score bool query whose clauses must all hold, term-set and
 * range clauses, a common-terms query, and field sorts.
 */
module Queries {
  import opened Base
  import opened Documents

  /** One `must` clause of a bool query. */
  datatype Clause =
    | Terms(field: string, values: seq<string>)                  // the field holds one of the values
    | Range(field: string, gte: Option<int>, lte: Option<int>)   // the field lies within the inclusive bounds given

  datatype Query =
    | ConstantScore(must: seq<Clause>)                // a filter only: every clause must hold, no relevance score
    | CommonTerms(field: string, terms: seq<string>)  // read here as an exact match on one of the terms

  predicate ClauseMatches(c: Clause, d: Doc) {
    match c
    case Terms(f, vs) => f in d && d[f].Text? && d[f].text in vs
    case Range(f, lo, hi) =>
      && f in d && d[f].Number?
      && (lo.Some? ==> lo.value <= d[f].number)
      && (hi.Some? ==> d[f].number <= hi.value)
  }

  /** Whether a stored document is selected by a query. A bool query without clauses selects everything. */
  predicate Matches(q: Query, d: Doc) {
    match q
    case ConstantScore(must) => forall i :: 0 <= i < |must| ==> ClauseMatches(must[i], d)
    case CommonTerms(f, ts) => f in d && d[f].Text? && d[f].text in ts
  }

  /** The store's sort order enum. */
  datatype SortOrder = ASC | DESC

  /** `SortOrder.valueOf(name)` for the names the sort directions produce. */
  function SortOrderValueOf(name: string): Option<SortOrder> {
    if name == "ASC" then Some(ASC) else if name == "DESC" then Some(DESC) else None
  }

  /** A sort on one field of the stored documents. */
  datatype FieldSort = FieldSort(field: string, order: SortOrder)
}

=== FILE: rating_handlers.dfy ===
/**
 * BlogPostRatingController: the `/blogposts/{id}/ratings` resource. As for
 * posts, a handler takes the store and gives back its result and the store
 * afterwards; the fresh rating id is a parameter.
 */
module RatingHandlers {
  import opened Base
  import opened Documents
  import opened DocumentStore
  import opened Http
  import Ratings
  import PostRepository
  import RatingRepository
  import PostHandlers

  /** `GET /blogposts/{id}/ratings`: the post's ratings, read only. */
  function GetAllRatingsForBlogPost(s: Store, id: Option<Id>, scan: seq<Id>)
    : (out: PostHandlers.Outcome<seq<Ratings.Rating>>)
    ensures out.store == s
    ensures id.None? ==> out.result == Err(NullArgument)
    ensures out.result.Ok? <==> RatingRepository.GetAllByParentId(s, id, scan).Ok?
    ensures out.result.Ok? ==> out.result.value.status == StatusOk
    ensures out.result.Ok? ==> out.result.value.body == Some(RatingRepository.GetAllByParentId(s, id, scan).value)
    ensures out.result.Err? ==> out.result.failure == RatingRepository.GetAllByParentId(s, id, scan).failure
    ensures out.result.Ok? ==> forall x :: x in out.result.value.body.value ==> x.blogPostId == id
  {
    if IdGuardAsWritten(id) then PostHandlers.Outcome(Err(BadRequest), s)
    else PostHandlers.Outcome(PostHandlers.OkWith(RatingRepository.GetAllByParentId(s, id, scan)), s)
  }

  /** The rating stored for a submission: the fresh id, the path's post id, and the body's score and author. */
  function RatingFor(body: Ratings.Rating, score: int, blogPostId: Option<Id>, newId: Id): (x: Ratings.Rating)
    ensures x == Ratings.Rating(Some(newId), blogPostId, Some(score), body.userId)
  {
    Ratings.Build(Ratings.WithUserId(
      Ratings.WithBlogPostId(Ratings.WithId(Ratings.WithRating(Ratings.ABlogPostRating(), score), Some(newId)), blogPostId),
      body.userId))
  }

  /** Store the rating for the submission and answer 201 with its id as location. */
  function AddRating(s: Store, body: Ratings.Rating, score: int, blogPostId: Option<Id>, newId: Id)
    : (out: PostHandlers.Outcome<Ratings.Rating>)
    ensures blogPostId.None? ==> out.result == Err(NullArgument) && out.store == s
    ensures blogPostId.Some? ==> out.result == Ok(Reply(StatusCreated, None, Some(newId)))
    ensures blogPostId.Some? ==> Lookup(out.store, RatingRepository.Index, RatingRepository.DocType, newId)
                                 == Some(EncodeRating(RatingFor(body, score, blogPostId, newId)))
    ensures blogPostId.Some? ==> SameElsewhere(s, out.store, RatingRepository.Index, RatingRepository.DocType, newId)
  {
    match RatingRepository.AddToParentResource(s, blogPostId, Some(RatingFor(body, score, blogPostId, newId)))
    case Ok((t, created)) => PostHandlers.Outcome(Ok(Reply(StatusCreated, None, Some(created.id.value))), t)
    case Err(f) => PostHandlers.Outcome(Err(f), s)
  }

  /**
   * `POST /blogposts/{id}/ratings` as written. A missing score fails on
   * unboxing; a score outside 1..5 is a bad request; both before any store
   * access. The post lookup's answer is then ignored, so a rating is
   * stored and 201 returned even when the post does not exist; only a
   * failing lookup (a null id, an unreadable post) stops it.
   */
  function SubmitRatingForBlogPost(s: Store, body: Ratings.Rating, blogPostId: Option<Id>, newId: Id)
    : (out: PostHandlers.Outcome<Ratings.Rating>)
    ensures body.rating.None? ==> out.result == Err(NullArgument) && out.store == s
    ensures body.rating.Some? && !Ratings.InRange(body.rating.value) ==> out.result == Err(BadRequest) && out.store == s
    ensures blogPostId.None? ==> out.result.Err? && out.store == s
    ensures out.result.Ok? ==> out.result.value == Reply(StatusCreated, None, Some(newId))
    ensures out.result.Ok? <==> body.rating.Some? && Ratings.InRange(body.rating.value)
                                && PostRepository.GetById(s, blogPostId).Ok?
    ensures out.result.Ok? ==> Lookup(out.store, RatingRepository.Index, RatingRepository.DocType, newId)
                               == Some(EncodeRating(Ratings.Rating(Some(newId), blogPostId, body.rating, body.userId)))
    ensures out.result.Ok? ==> SameElsewhere(s, out.store, RatingRepository.Index, RatingRepository.DocType, newId)
    ensures out.result.Err? ==> out.store == s
  {
    if body.rating.None? then PostHandlers.Outcome(Err(NullArgument), s)
    else if body.rating.value > Ratings.MaxRating || body.rating.value < Ratings.MinRating then
      PostHandlers.Outcome(Err(BadRequest), s)
    else if IdGuardAsWritten(blogPostId) then PostHandlers.Outcome(Err(BadRequest), s)
    else match PostRepository.GetById(s, blogPostId)
      case Err(f) => PostHandlers.Outcome(Err(f), s)
      case Ok(_) => AddRating(s, body, body.rating.value, blogPostId, newId)
  }

  /** As written, a rating for a post that does not exist is stored and answered with 201. */
  lemma RatingForMissingPostIsStored(s: Store, body: Ratings.Rating, blogPostId: Id, newId: Id)
    requires body.rating.Some? && Ratings.InRange(body.rating.value)
    requires Lookup(s, PostRepository.Index, PostRepository.DocType, blogPostId).None?
    ensures StatusOfAsWritten(SubmitRatingForBlogPost(s, body, Some(blogPostId), newId).result) == StatusCreated
    ensures Lookup(SubmitRatingForBlogPost(s, body, Some(blogPostId), newId).store,
                   RatingRepository.Index, RatingRepository.DocType, newId).Some?
  {
  }

  /** As written, an out-of-range score ends in a server error rather than 400. */
  lemma OutOfRangeScoreIsServerError(s: Store, body: Ratings.Rating, blogPostId: Option<Id>, newId: Id)
    requires body.rating.Some? && !Ratings.InRange(body.rating.value)
    ensures StatusOfAsWritten(SubmitRatingForBlogPost(s, body, blogPostId, newId).result) == StatusServerError
    ensures StatusOf(SubmitRatingForBlogPost(s, body, blogPostId, newId).result) == StatusBadRequest
  {
  }

  /**
   * Corrected submission: a post that does not exist is 404 and nothing is
   * stored, as the handler's documentation promises.
   */
  function SubmitRatingCheckingParent(s: Store, body: Ratings.Rating, blogPostId: Option<Id>, newId: Id)
    : (out: PostHandlers.Outcome<Ratings.Rating>)
    ensures body.rating.None? ==> out.result == Err(NullArgument) && out.store == s
    ensures body.rating.Some? && !Ratings.InRange(body.rating.value) ==> out.result == Err(BadRequest) && out.store == s
    ensures body.rating.Some? && Ratings.InRange(body.rating.value) && blogPostId.Some?
            && Lookup(s, PostRepository.Index, PostRepository.DocType, blogPostId.value).None?
            ==> out.result == Err(NotFound) && out.store == s
    ensures out.result.Ok? <==> body.rating.Some? && Ratings.InRange(body.rating.value)
                                && PostRepository.GetById(s, blogPostId).Ok?
                                && PostRepository.GetById(s, blogPostId).value.Some?
    ensures out.result.Ok? ==> out.result.value == Reply(StatusCreated, None, Some(newId))
    ensures out.result.Ok? ==> Lookup(out.store, RatingRepository.Index, RatingRepository.DocType, newId)
                               == Some(EncodeRating(Ratings.Rating(Some(newId), blogPostId, body.rating, body.userId)))
    ensures out.result.Ok? ==> SameElsewhere(s, out.store, RatingRepository.Index, RatingRepository.DocType, newId)
    ensures out.result.Err? ==> out.store == s
  {
    if body.rating.None? then PostHandlers.Outcome(Err(NullArgument), s)
    else if body.rating.value > Ratings.MaxRating || body.rating.value < Ratings.MinRating then
      PostHandlers.Outcome(Err(BadRequest), s)
    else if IdGuardAsWritten(blogPostId) then PostHandlers.Outcome(Err(BadRequest), s)
    else match PostRepository.GetById(s, blogPostId)
      case Err(f) => PostHandlers.Outcome(Err(f), s)
      case Ok(None) => PostHandlers.Outcome(Err(NotFound), s)
      case Ok(Some(_)) => AddRating(s, body, body.rating.value, blogPostId, newId)
  }

  /** With the correction, every stored rating that a submission adds belongs to a stored post. */
  lemma CorrectedSubmitNeedsParent(s: Store, body: Ratings.Rating, blogPostId: Option<Id>, newId: Id)
    requires SubmitRatingCheckingParent(s, body, blogPostId, newId).result.Ok?
    ensures blogPostId.Some?
    ensures Lookup(s, PostRepository.Index, PostRepository.DocType, blogPostId.value).Some?
    ensures Ratings.InRange(body.rating.value)
  {
  }

  /** A successful submission is listed among the post's ratings, with the path's post id and the body's score. */
  lemma SubmittedRatingIsStored(s: Store, body: Ratings.Rating, blogPostId: Option<Id>, newId: Id)
    requires SubmitRatingCheckingParent(s, body, blogPostId, newId).result.Ok?
    ensures Ratings.Rating(Some(newId), blogPostId, body.rating, body.userId)
            in RatingRepository.StoredRatings(SubmitRatingCheckingParent(s, body, blogPostId, newId).store)
  {
    var x := Ratings.Rating(Some(newId), blogPostId, body.rating, body.userId);
    var t := SubmitRatingCheckingParent(s, body, blogPostId, newId).store;
    RatingRoundTrip(x);
    assert DocsOf(t, RatingRepository.Index, RatingRepository.DocType)[newId] == EncodeRating(x);
  }
}

=== FILE: rating_repository.dfy ===
/**
 * BlogPostRatingDao: ratings stored as child resources of a post, found by
 * the id of the post they belong to.
 */
module RatingRepository {
  import opened Base
  import opened JavaStrings
  import opened Documents
  import opened Queries
  import opened DocumentStore
  import Ratings

  const Index := "microblog"
  const DocType := "rating"

  /** The search `getAllByParentId` sends: every rating whose post id is the parent's, unpaged and unsorted. */
  function ParentRequest(parentId: Id): SearchRequest {
    PrepareFindAllUnpaged(Index, DocType, CommonTerms(BlogPostIdField, [parentId]))
  }

  /** The index and type names are already lower case, so the lower-casing search leaves them as they are. */
  lemma ParentRequestTargetsRatings(parentId: Id)
    ensures ParentRequest(parentId).index == Index
    ensures ParentRequest(parentId).docType == DocType
    ensures ParentRequest(parentId).from == 0 && ParentRequest(parentId).size == EsMaxSize
    ensures ParentRequest(parentId).sorts == []
  {
    assert ToLowerCase(Index) == Index;
    assert ToLowerCase(DocType) == DocType;
  }

  /**
   * `getAllByParentId`: a null parent id is rejected; otherwise the ratings
   * whose post id is the parent's, one per hit in hit order, and the empty
   * list when there is no index or nothing matches.
   */
  function GetAllByParentId(s: Store, parentId: Option<Id>, scan: seq<Id>): (r: Result<seq<Ratings.Rating>>)
    ensures parentId.None? ==> r == Err(NullArgument)
    ensures parentId.Some? && Index !in s.indices ==> r == Ok([])
    ensures r.Ok? && parentId.Some? ==> forall x :: x in r.value ==> x.blogPostId == parentId
  {
    if parentId.None? then Err(NullArgument)
    else
      var req := ParentRequest(parentId.value);
      ParentRequestTargetsRatings(parentId.value);
      match Execute(s, req, scan)
      case Err(e) => Err(e)
      case Ok(resp) =>
        if resp.None? || resp.value.totalHits == 0 then Ok([])
        else
          var r := DecodeEach(resp.value.hits, DecodeRating);
          match r
          case Err(_) => r
          case Ok(xs) => DecodedHitsNameParent(resp.value.hits, parentId.value, xs); r
  }

  /** Ratings decoded from hits that name the parent all carry the parent's id. */
  lemma DecodedHitsNameParent(hits: seq<Doc>, parentId: Id, r: seq<Ratings.Rating>)
    requires forall i :: 0 <= i < |hits| ==> Matches(CommonTerms(BlogPostIdField, [parentId]), hits[i])
    requires DecodeEach(hits, DecodeRating) == Ok(r)
    ensures forall x :: x in r ==> x.blogPostId == Some(parentId)
  {
    forall i | 0 <= i < |r|
      ensures r[i].blogPostId == Some(parentId)
    {
      assert DecodeRating(hits[i]) == Ok(r[i]);
      DecodedRatingPostId(hits[i], r[i]);
      assert Matches(CommonTerms(BlogPostIdField, [parentId]), hits[i]);
    }
  }

  /** The ratings stored under the post's index and type that the decoder can read. */
  function StoredRatings(s: Store): set<Ratings.Rating> {
    var docs := DocsOf(s, Index, DocType);
    set k | k in docs && DecodeRating(docs[k]).Ok? :: DecodeRating(docs[k]).value
  }

  /** The ratings whose post id is the parent's, in visiting order. */
  function ChildDocs(s: Store, parentId: Id, scan: seq<Id>): seq<Doc> {
    Matching(DocsOf(s, Index, DocType), scan, CommonTerms(BlogPostIdField, [parentId]))
  }

  /** Under the conditions below the listing is the decoding of every matching document, and each decodes. */
  lemma ListingDecodesChildDocs(s: Store, parentId: Id, scan: seq<Id>)
    requires Index in s.indices
    requires forall k :: k in DocsOf(s, Index, DocType) ==> DecodeRating(DocsOf(s, Index, DocType)[k]).Ok?
    requires |scan| <= EsMaxSize
    ensures forall i :: 0 <= i < |ChildDocs(s, parentId, scan)| ==> DecodeRating(ChildDocs(s, parentId, scan)[i]).Ok?
    ensures GetAllByParentId(s, Some(parentId), scan) == DecodeEach(ChildDocs(s, parentId, scan), DecodeRating)
  {
    var docs := DocsOf(s, Index, DocType);
    var q := CommonTerms(BlogPostIdField, [parentId]);
    var all := ChildDocs(s, parentId, scan);
    ParentRequestTargetsRatings(parentId);
    forall i | 0 <= i < |all|
      ensures DecodeRating(all[i]).Ok?
    {
      MatchingMembers(docs, scan, q, all[i]);
    }
    var resp := Execute(s, ParentRequest(parentId), scan);
    assert resp.Ok? && resp.value.Some? && resp.value.value.hits == all;
  }

  /** Every decoded matching document is a stored rating naming the parent. */
  lemma DecodedChildrenAreStored(s: Store, parentId: Id, scan: seq<Id>, r: seq<Ratings.Rating>)
    requires DecodeEach(ChildDocs(s, parentId, scan), DecodeRating) == Ok(r)
    ensures forall x :: x in r ==> x in StoredRatings(s) && x.blogPostId == Some(parentId)
  {
    var docs := DocsOf(s, Index, DocType);
    var q := CommonTerms(BlogPostIdField, [parentId]);
    var all := ChildDocs(s, parentId, scan);
    forall i | 0 <= i < |r|
      ensures r[i] in StoredRatings(s) && r[i].blogPostId == Some(parentId)
    {
      assert DecodeRating(all[i]) == Ok(r[i]);
      DecodedRatingPostId(all[i], r[i]);
      assert Matches(q, all[i]);
      MatchingMembers(docs, scan, q, all[i]);
      var k :| k in scan && k in docs && docs[k] == all[i] && Matches(q, all[i]);
      assert DecodeRating(docs[k]) == Ok(r[i]);
    }
  }

  /** Every stored rating naming the parent under a visited id is among the decoded matching documents. */
  lemma StoredChildrenAreDecoded(s: Store, parentId: Id, scan: seq<Id>, r: seq<Ratings.Rating>)
    requires forall k :: k in DocsOf(s, Index, DocType) ==> k in scan
    requires DecodeEach(ChildDocs(s, parentId, scan), DecodeRating) == Ok(r)
    ensures forall x :: x in StoredRatings(s) && x.blogPostId == Some(parentId) ==> x in r
  {
    var docs := DocsOf(s, Index, DocType);
    var q := CommonTerms(BlogPostIdField, [parentId]);
    var all := ChildDocs(s, parentId, scan);
    forall x | x in StoredRatings(s) && x.blogPostId == Some(parentId)
      ensures x in r
    {
      var k :| k in docs && DecodeRating(docs[k]).Ok? && DecodeRating(docs[k]).value == x;
      DecodedRatingPostId(docs[k], x);
      assert Matches(q, docs[k]);
      MatchingMembers(docs, scan, q, docs[k]);
      var i :| 0 <= i < |all| && all[i] == docs[k];
      assert r[i] == x;
    }
  }

  /** A post's ratings number exactly its distinct visited child ids: no stored rating is listed twice. */
  lemma ListingCountsEachChildOnce(s: Store, parentId: Id, scan: seq<Id>)
    requires Index in s.indices
    requires forall k :: k in DocsOf(s, Index, DocType) ==> DecodeRating(DocsOf(s, Index, DocType)[k]).Ok?
    requires |scan| <= EsMaxSize
    ensures GetAllByParentId(s, Some(parentId), scan).Ok?
    ensures |GetAllByParentId(s, Some(parentId), scan).value|
            == |MatchedIds(DocsOf(s, Index, DocType), scan, CommonTerms(BlogPostIdField, [parentId]))|
  {
    ListingDecodesChildDocs(s, parentId, scan);
    MatchingCountsEachIdOnce(DocsOf(s, Index, DocType), scan, CommonTerms(BlogPostIdField, [parentId]));
  }

  /**
   * When every stored rating decodes, the visiting order reaches every id
   * and there are no more than one default page of them, a post's ratings
   * are exactly the stored ratings that name it.
   */
  lemma GetAllByParentIdSelectsChildren(s: Store, parentId: Id, scan: seq<Id>)
    requires Index in s.indices
    requires forall k :: k in DocsOf(s, Index, DocType) ==> k in scan
    requires forall k :: k in DocsOf(s, Index, DocType) ==> DecodeRating(DocsOf(s, Index, DocType)[k]).Ok?
    requires |scan| <= EsMaxSize
    ensures GetAllByParentId(s, Some(parentId), scan).Ok?
    ensures forall x :: x in GetAllByParentId(s, Some(parentId), scan).value <==>
                          x in StoredRatings(s) && x.blogPostId == Some(parentId)
  {
    ListingDecodesChildDocs(s, parentId, scan);
    var r := GetAllByParentId(s, Some(parentId), scan).value;
    DecodedChildrenAreStored(s, parentId, scan, r);
    StoredChildrenAreDecoded(s, parentId, scan, r);
  }

  /**
   * `addToParentResource`: the rating is checked for null before the post
   * id; the rating is written whole under its own id (a rating without an
   * id is rejected by `createNewDocument`'s null check) and returned unchanged. The post id
   * argument is only checked, never written: the rating keeps its own.
   */
  function AddToParentResource(s: Store, blogPostId: Option<Id>, rating: Option<Ratings.Rating>)
    : (r: Result<(Store, Ratings.Rating)>)
    ensures rating.None? || blogPostId.None? ==> r == Err(NullArgument)
    ensures r.Err? <==> rating.None? || blogPostId.None? || rating.value.id.None?
    ensures r.Err? ==> r.failure == NullArgument
    ensures r.Ok? ==> r.value.1 == rating.value
    ensures r.Ok? ==> Lookup(r.value.0, Index, DocType, rating.value.id.value) == Some(EncodeRating(rating.value))
    ensures r.Ok? ==> SameElsewhere(s, r.value.0, Index, DocType, rating.value.id.value)
  {
    if rating.None? then Err(NullArgument)
    else if blogPostId.None? then Err(NullArgument)
    else
      var created :- DocumentStore.Create(s, Index, DocType, rating.value.id, Some(EncodeRating(rating.value)));
      Ok((created.0, rating.value))
  }

  /** A rating added under its own post's id is listed among that post's ratings. */
  lemma AddedRatingIsListed(s: Store, x: Ratings.Rating)
    requires x.id.Some? && x.blogPostId.Some?
    ensures AddToParentResource(s, x.blogPostId, Some(x)).Ok?
    ensures var t := AddToParentResource(s, x.blogPostId, Some(x)).value.0;
            x in StoredRatings(t)
  {
    var t := AddToParentResource(s, x.blogPostId, Some(x)).value.0;
    RatingRoundTrip(x);
    assert Lookup(t, Index, DocType, x.id.value) == Some(EncodeRating(x));
    assert DocsOf(t, Index, DocType)[x.id.value] == EncodeRating(x);
  }
}

=== FILE: ratings.dfy ===
/**
 * BlogPostRating: a numeric rating of one post by one user, its bounds,
 * setters, builder and field-wise equality.
 */
module Ratings {
  import opened Base
  import opened JavaStrings

  /** Highest score for a post. */
  const MaxRating: int := 5
  /** Lowest score for a post. */
  const MinRating: int := 1

  predicate InRange(rating: int) {
    MinRating <= rating <= MaxRating
  }

  /** The rating value is a nullable `Integer`. */
  datatype Rating = Rating(id: Option<string>, blogPostId: Option<string>, rating: Option<int>, userId: Option<string>)

  /** The four-argument constructor: the rating value comes in as a primitive and is never null. */
  function NewRating(id: Option<string>, blogPostId: Option<string>, rating: int, userId: Option<string>): (r: Rating)
    ensures r.id == id && r.blogPostId == blogPostId && r.rating == Some(rating) && r.userId == userId
  {
    Rating(id, blogPostId, Some(rating), userId)
  }

  /** The no-argument constructor used by the JSON binder: every field null. */
  function EmptyRating(): (r: Rating)
    ensures r.id.None? && r.blogPostId.None? && r.rating.None? && r.userId.None?
  {
    Rating(None, None, None, None)
  }

  function SetId(r: Rating, id: Option<string>): (s: Rating)
    ensures s.id == id && s.blogPostId == r.blogPostId && s.rating == r.rating && s.userId == r.userId
  {
    r.(id := id)
  }

  function SetBlogPostId(r: Rating, blogPostId: Option<string>): (s: Rating)
    ensures s.blogPostId == blogPostId && s.id == r.id && s.rating == r.rating && s.userId == r.userId
  {
    r.(blogPostId := blogPostId)
  }

  function SetRating(r: Rating, rating: Option<int>): (s: Rating)
    ensures s.rating == rating && s.id == r.id && s.blogPostId == r.blogPostId && s.userId == r.userId
  {
    r.(rating := rating)
  }

  function SetUserId(r: Rating, userId: Option<string>): (s: Rating)
    ensures s.userId == userId && s.id == r.id && s.blogPostId == r.blogPostId && s.rating == r.rating
  {
    r.(userId := userId)
  }

  /** The builder keeps the rating in a primitive `int`, so it is 0 until set. */
  datatype RatingBuilder = RatingBuilder(id: Option<string>, blogPostId: Option<string>, rating: int, userId: Option<string>)

  /** `BlogPostRatingBuilder.aBlogPostRating()` */
  function ABlogPostRating(): (b: RatingBuilder)
    ensures b.id.None? && b.blogPostId.None? && b.rating == 0 && b.userId.None?
  {
    RatingBuilder(None, None, 0, None)
  }

  function WithId(b: RatingBuilder, id: Option<string>): (c: RatingBuilder)
    ensures c.id == id && c.blogPostId == b.blogPostId && c.rating == b.rating && c.userId == b.userId
  {
    b.(id := id)
  }

  function WithBlogPostId(b: RatingBuilder, blogPostId: Option<string>): (c: RatingBuilder)
    ensures c.blogPostId == blogPostId && c.id == b.id && c.rating == b.rating && c.userId == b.userId
  {
    b.(blogPostId := blogPostId)
  }

  function WithRating(b: RatingBuilder, rating: int): (c: RatingBuilder)
    ensures c.rating == rating && c.id == b.id && c.blogPostId == b.blogPostId && c.userId == b.userId
  {
    b.(rating := rating)
  }

  function WithUserId(b: RatingBuilder, userId: Option<string>): (c: RatingBuilder)
    ensures c.userId == userId && c.id == b.id && c.blogPostId == b.blogPostId && c.rating == b.rating
  {
    b.(userId := userId)
  }

  /** `build()` goes through the four-argument constructor. */
  function Build(b: RatingBuilder): (r: Rating)
    ensures r.id == b.id && r.blogPostId == b.blogPostId && r.rating == Some(b.rating) && r.userId == b.userId
  {
    NewRating(b.id, b.blogPostId, b.rating, b.userId)
  }

  /** The builder carries all four fields into the built rating. */
  lemma BuilderRoundTrip(id: Option<string>, blogPostId: Option<string>, rating: int, userId: Option<string>)
    ensures Build(WithUserId(WithRating(WithBlogPostId(WithId(ABlogPostRating(), id), blogPostId), rating), userId))
            == Rating(id, blogPostId, Some(rating), userId)
  {
  }

  /** A rating built without `withRating` holds 0, which is outside the accepted range. */
  lemma UnsetBuilderRatingOutOfRange()
    ensures Build(ABlogPostRating()).rating == Some(0)
    ensures !InRange(Build(ABlogPostRating()).rating.value)
  {
  }

  predicate NullableEquals<T(==)>(a: Option<T>, b: Option<T>) {
    if a.Some? then b.Some? && a.value == b.value else b.None?
  }

  /** `BlogPostRating.equals`: id, blogPostId, rating, then userId, each null-safe. */
  predicate Equals(a: Rating, b: Rating) {
    if !NullableEquals(a.id, b.id) then false
    else if !NullableEquals(a.blogPostId, b.blogPostId) then false
    else if !NullableEquals(a.rating, b.rating) then false
    else NullableEquals(a.userId, b.userId)
  }

  /** The source's equality is exactly equality of all four fields, null equal to null. */
  lemma EqualsIsFieldwise(a: Rating, b: Rating)
    ensures Equals(a, b) <==> a.id == b.id && a.blogPostId == b.blogPostId && a.rating == b.rating && a.userId == b.userId
    ensures Equals(a, b) <==> a == b
  {
  }

  function HashOfText(s: Option<string>): int {
    if s.Some? then StringHash(s.value) else 0
  }

  /** `BlogPostRating.hashCode()`: `Integer.hashCode` is the value itself. */
  function HashCode(r: Rating): (h: int)
    ensures -0x8000_0000 <= h < 0x8000_0000
  {
    var h0 := HashOfText(r.id);
    var h1 := Int32(31 * h0 + HashOfText(r.blogPostId));
    var h2 := Int32(31 * h1 + (if r.rating.Some? then Int32(r.rating.value) else 0));
    Int32(31 * h2 + HashOfText(r.userId))
  }

  /** Equal ratings hash alike. */
  lemma HashCodeAgreesWithEquals(a: Rating, b: Rating)
    requires Equals(a, b)
    ensures HashCode(a) == HashCode(b)
  {
  }
}

=== FILE: sort_column.dfy ===
/**
 * The sort request parameter `<column>:<direction>` and its parser
 * (SortColumn and its SortDirection enum).
 */
module SortColumns {
  import opened Base
  import opened JavaStrings

  /** The separator between the column and the direction. */
  const SortSplitToken: char := ':'

  datatype Direction = Asc | Desc

  /** `SortDirection.name()` */
  function Name(d: Direction): string {
    match d
    case Asc => "ASC"
    case Desc => "DESC"
  }

  /** `SortDirection.valueOf(name)`: an exact, case-sensitive lookup of the constant's name. */
  function ValueOf(name: string): (r: Result<Direction>)
    ensures r.Ok? <==> name == "ASC" || name == "DESC"
    ensures r.Ok? ==> Name(r.value) == name
    ensures r.Err? ==> r.failure == ParseError
  {
    if name == "ASC" then Ok(Asc)
    else if name == "DESC" then Ok(Desc)
    else Err(ParseError)
  }

  datatype SortColumn = SortColumn(column: string, direction: Direction)

  /**
   * The constructor `SortColumn(column, direction)`: the column is kept as
   * given and the direction is looked up after upper-casing, so the
   * direction is accepted in any mix of cases and nothing else is.
   */
  function NewSortColumn(column: string, direction: string): (r: Result<SortColumn>)
    ensures r.Ok? <==> EqualsIgnoreCase(direction, "ASC") || EqualsIgnoreCase(direction, "DESC")
    ensures r.Ok? ==> r.value.column == column
    ensures r.Ok? ==> (r.value.direction == Asc <==> EqualsIgnoreCase(direction, "ASC"))
    ensures r.Err? ==> r.failure == ParseError
  {
    UpperCaseMatchesIgnoringCase(direction, "ASC");
    UpperCaseMatchesIgnoringCase(direction, "DESC");
    match ValueOf(ToUpperCase(direction))
    case Ok(d) => Ok(SortColumn(column, d))
    case Err(f) => Err(f)
  }

  /**
   * `SortColumn.parse`: split on ':' and build from the first two parts.
   * Fewer than two parts is an out-of-bounds array access in the source;
   * both that and an unknown direction are the one `ParseError` here.
   */
  function Parse(sortParam: string): (r: Result<SortColumn>)
    ensures SortSplitToken !in sortParam ==> r == Err(ParseError)
    ensures r.Ok? ==> SortSplitToken in sortParam
    ensures r.Ok? ==> r.value.column == sortParam[..IndexOf(sortParam, SortSplitToken)]
    ensures r.Err? ==> r.failure == ParseError
  {
    var parts := Split(sortParam, SortSplitToken);
    if |parts| < 2 then Err(ParseError)
    else
      SplitFirstPart(sortParam, SortSplitToken);
      NewSortColumn(parts[0], parts[1])
  }

  /** "colName:ASC" is column colName, ascending. */
  lemma ParseValidAsc()
    ensures Parse("colName:ASC") == Ok(SortColumn("colName", Asc))
  {
    SplitTwo("colName", "ASC", SortSplitToken);
    assert "colName" + [SortSplitToken] + "ASC" == "colName:ASC";
  }

  /** "colName:DESC" is column colName, descending. */
  lemma ParseValidDesc()
    ensures Parse("colName:DESC") == Ok(SortColumn("colName", Desc))
  {
    SplitTwo("colName", "DESC", SortSplitToken);
    assert "colName" + [SortSplitToken] + "DESC" == "colName:DESC";
  }

  /** The empty parameter and one with the wrong divider do not parse. */
  lemma ParseRejectsEmptyAndWrongDivider()
    ensures Parse("") == Err(ParseError)
    ensures Parse("sortcolumn=ASC") == Err(ParseError)
  {
    var wrong := "sortcolumn=ASC";
    assert SortSplitToken !in wrong by {
      forall i | 0 <= i < |wrong|
        ensures wrong[i] != SortSplitToken
      {
      }
    }
  }

  /** Rendering a sort column and parsing it back gives the same column and direction. */
  lemma ParseRoundTrip(column: string, d: Direction)
    requires SortSplitToken !in column
    ensures Parse(column + [SortSplitToken] + Name(d)) == Ok(SortColumn(column, d))
  {
    SplitTwo(column, Name(d), SortSplitToken);
  }

  /**
   * The direction token is matched ignoring case: "asc", "Asc" and "ASC"
   * all give ascending, and a token that is neither name in any case is
   * rejected.
   */
  lemma ParseDirectionIgnoresCase(column: string, token: string)
    requires SortSplitToken !in column && SortSplitToken !in token
    ensures Parse(column + [SortSplitToken] + token) == Ok(SortColumn(column, Asc)) <==> EqualsIgnoreCase(token, "ASC")
    ensures Parse(column + [SortSplitToken] + token) == Ok(SortColumn(column, Desc)) <==> EqualsIgnoreCase(token, "DESC")
    ensures Parse(column + [SortSplitToken] + token).Err? <==> !EqualsIgnoreCase(token, "ASC") && !EqualsIgnoreCase(token, "DESC")
  {
    if token == "" {
      ParseRejectsEmptyDirection(column, "");
      assert column + [SortSplitToken] + token == column + [SortSplitToken];
      assert !EqualsIgnoreCase(token, "ASC") && !EqualsIgnoreCase(token, "DESC");
    } else {
      SplitTwo(column, token, SortSplitToken);
    }
  }

  /**
   * An empty direction token does not parse: "colName:" loses its empty
   * second part to split, and "colName::DESC" keeps it and fails the
   * enum lookup.
   */
  lemma ParseRejectsEmptyDirection(column: string, rest: string)
    requires SortSplitToken !in column
    ensures Parse(column + [SortSplitToken]) == Err(ParseError)
    ensures Parse(column + [SortSplitToken, SortSplitToken] + rest) == Err(ParseError)
  {
    SplitEmptySecondPart(column, "", SortSplitToken);
    assert column + [SortSplitToken] + "" == column + [SortSplitToken];
    SplitEmptySecondPart(column, [SortSplitToken] + rest, SortSplitToken);
    assert column + [SortSplitToken] + ([SortSplitToken] + rest) == column + [SortSplitToken, SortSplitToken] + rest;
  }

  /** Everything from a second ':' on is ignored. */
  lemma ParseIgnoresTail(column: string, token: string, rest: string)
    requires SortSplitToken !in column && SortSplitToken !in token
    ensures Parse(column + [SortSplitToken] + token + [SortSplitToken] + rest) == Parse(column + [SortSplitToken] + token)
  {
    if token == "" {
      ParseRejectsEmptyDirection(column, rest);
      assert column + [SortSplitToken] + token + [SortSplitToken] + rest == column + [SortSplitToken, SortSplitToken] + rest;
      assert column + [SortSplitToken] + token == column + [SortSplitToken];
    } else {
      SplitIgnoresTail(column, token, rest, SortSplitToken);
      SplitTwo(column, token, SortSplitToken);
    }
  }
}

=== FILE: sort_filter.dfy ===
/**
 * BlogPostSortFilter: the query-time filter, paging and sort options for
 * listing posts. Every field is a nullable Java reference.
 */
module SortFilters {
  import opened Base

  /** Timestamps are abstract instants (milliseconds since the epoch). */
  datatype SortFilter = SortFilter(
    fromDateTime: Option<int>,
    toDateTime: Option<int>,
    size: Option<int>,
    offset: Option<int>,
    userIds: Option<seq<string>>,
    sort: Option<seq<string>>)

  /** The no-argument constructor: no bounds, no paging, empty id and sort lists. */
  function Default(): (f: SortFilter)
    ensures f.fromDateTime.None? && f.toDateTime.None?
    ensures f.size.None? && f.offset.None?
    ensures f.userIds == Some([]) && f.sort == Some([])
  {
    SortFilter(None, None, None, None, Some([]), Some([]))
  }

  /** The six-argument constructor stores each argument unchanged, nulls included. */
  function Make(fromDateTime: Option<int>, toDateTime: Option<int>, size: Option<int>, offset: Option<int>,
                userIds: Option<seq<string>>, sort: Option<seq<string>>): (f: SortFilter)
    ensures f.fromDateTime == fromDateTime && f.toDateTime == toDateTime
    ensures f.size == size && f.offset == offset
    ensures f.userIds == userIds && f.sort == sort
  {
    SortFilter(fromDateTime, toDateTime, size, offset, userIds, sort)
  }

  /** `setFromDateTime` */
  function SetFromDateTime(f: SortFilter, v: Option<int>): (g: SortFilter)
    ensures g.fromDateTime == v
    ensures g.toDateTime == f.toDateTime && g.size == f.size && g.offset == f.offset
    ensures g.userIds == f.userIds && g.sort == f.sort
  {
    f.(fromDateTime := v)
  }

  /** `setToDateTime` */
  function SetToDateTime(f: SortFilter, v: Option<int>): (g: SortFilter)
    ensures g.toDateTime == v
    ensures g.fromDateTime == f.fromDateTime && g.size == f.size && g.offset == f.offset
    ensures g.userIds == f.userIds && g.sort == f.sort
  {
    f.(toDateTime := v)
  }

  /** `setSize` */
  function SetSize(f: SortFilter, v: Option<int>): (g: SortFilter)
    ensures g.size == v
    ensures g.fromDateTime == f.fromDateTime && g.toDateTime == f.toDateTime && g.offset == f.offset
    ensures g.userIds == f.userIds && g.sort == f.sort
  {
    f.(size := v)
  }

  /** `setOffset` */
  function SetOffset(f: SortFilter, v: Option<int>): (g: SortFilter)
    ensures g.offset == v
    ensures g.fromDateTime == f.fromDateTime && g.toDateTime == f.toDateTime && g.size == f.size
    ensures g.userIds == f.userIds && g.sort == f.sort
  {
    f.(offset := v)
  }

  /** `setUserIds` */
  function SetUserIds(f: SortFilter, v: Option<seq<string>>): (g: SortFilter)
    ensures g.userIds == v
    ensures g.fromDateTime == f.fromDateTime && g.toDateTime == f.toDateTime
    ensures g.size == f.size && g.offset == f.offset && g.sort == f.sort
  {
    f.(userIds := v)
  }

  /** `setSort` */
  function SetSort(f: SortFilter, v: Option<seq<string>>): (g: SortFilter)
    ensures g.sort == v
    ensures g.fromDateTime == f.fromDateTime && g.toDateTime == f.toDateTime
    ensures g.size == f.size && g.offset == f.offset && g.userIds == f.userIds
  {
    f.(sort := v)
  }

  /** Setting every field of the default filter gives the six-argument constructor's filter. */
  lemma SettersAgreeWithConstructor(fromDateTime: Option<int>, toDateTime: Option<int>, size: Option<int>,
                                    offset: Option<int>, userIds: Option<seq<string>>, sort: Option<seq<string>>)
    ensures SetSort(SetUserIds(SetOffset(SetSize(SetToDateTime(SetFromDateTime(Default(), fromDateTime),
              toDateTime), size), offset), userIds), sort)
            == Make(fromDateTime, toDateTime, size, offset, userIds, sort)
  {
  }
}

=== FILE: store.dfy ===
/**
 * The document store as the repositories see it: named indices holding
 * named types holding documents by id, with get, delete, create (index),
 * partial update and paged search. This is the contract both client
 * facades (ElasticsearchClient and AbstractElasticsearchDao) give their
 * callers; an index that has never been written to behaves as empty on
 * reads and is ignored on delete.
 */
module DocumentStore {
  import opened Base
  import opened JavaStrings
  import opened Documents
  import opened Queries

  type Id = string

  /** index name -> type name -> id -> document. An index never written to is absent. */
  datatype Store = Store(indices: map<string, map<string, map<Id, Doc>>>)

  /** The page size the client asks for when no size is given. */
  const EsMaxSize: int := 10000

  /** The store's default cap on `from + size` for one search request. */
  const MaxResultWindow: int := 10000

  /** The documents of one type; empty when the index or the type does not exist. */
  function DocsOf(s: Store, index: string, docType: string): map<Id, Doc> {
    if index in s.indices && docType in s.indices[index] then s.indices[index][docType] else map[]
  }

  function Lookup(s: Store, index: string, docType: string, id: Id): Option<Doc> {
    var docs := DocsOf(s, index, docType);
    if id in docs then Some(docs[id]) else None
  }

  /** Nothing but the one slot `index`/`docType`/`id` differs between `s` and `t`. */
  ghost predicate SameElsewhere(s: Store, t: Store, index: string, docType: string, id: Id) {
    forall i, ty, k {:trigger Lookup(t, i, ty, k)} ::
      !(i == index && ty == docType && k == id) ==> Lookup(t, i, ty, k) == Lookup(s, i, ty, k)
  }

  /** Store `doc` in one slot, creating the index and the type on first use. */
  function Put(s: Store, index: string, docType: string, id: Id, doc: Doc): (t: Store)
    ensures t.indices.Keys == s.indices.Keys + {index}
    ensures Lookup(t, index, docType, id) == Some(doc)
    ensures SameElsewhere(s, t, index, docType, id)
  {
    var types := if index in s.indices then s.indices[index] else map[];
    Store(s.indices[index := types[docType := DocsOf(s, index, docType)[id := doc]]])
  }

  /** Empty one slot of an existing index; an empty slot leaves the store as it is. */
  function Remove(s: Store, index: string, docType: string, id: Id): (t: Store)
    ensures t.indices.Keys == s.indices.Keys
    ensures Lookup(t, index, docType, id).None?
    ensures SameElsewhere(s, t, index, docType, id)
    ensures Lookup(s, index, docType, id).None? ==> t == s
  {
    if Lookup(s, index, docType, id).None? then s
    else Store(s.indices[index := s.indices[index][docType := DocsOf(s, index, docType) - {id}]])
  }

  /** The answer to a get: the document's source, or nothing when there is no such document. */
  datatype GetResponse = GetResponse(source: Option<Doc>)

  /** `getById` / `findById`: no response at all when the index does not exist yet. */
  function GetById(s: Store, index: string, docType: string, id: Id): (r: Option<GetResponse>)
    ensures r.None? <==> index !in s.indices
    ensures r.Some? ==> r.value.source == Lookup(s, index, docType, id)
  {
    if index !in s.indices then None
    else Some(GetResponse(Lookup(s, index, docType, id)))
  }

  /** `deleteById`: never fails; a missing index or document is ignored. */
  function DeleteById(s: Store, index: string, docType: string, id: Id): (t: Store)
    ensures t.indices.Keys == s.indices.Keys
    ensures Lookup(t, index, docType, id).None?
    ensures SameElsewhere(s, t, index, docType, id)
    ensures index !in s.indices ==> t == s
  {
    if index !in s.indices then s else Remove(s, index, docType, id)
  }

  /** Deleting twice is deleting once. */
  lemma DeleteByIdIdempotent(s: Store, index: string, docType: string, id: Id)
    ensures DeleteById(DeleteById(s, index, docType, id), index, docType, id) == DeleteById(s, index, docType, id)
  {
  }

  /**
   * `create` / `createNewDocument`: a null id or document is rejected before
   * the store is touched; otherwise the whole document is indexed under the
   * id, replacing any earlier one, and the id is returned.
   */
  function Create(s: Store, index: string, docType: string, id: Option<Id>, json: Option<Doc>): (r: Result<(Store, Id)>)
    ensures r.Err? <==> id.None? || json.None?
    ensures r.Err? ==> r.failure == NullArgument
    ensures r.Ok? ==> r.value.1 == id.value
    ensures r.Ok? ==> Lookup(r.value.0, index, docType, id.value) == json
    ensures r.Ok? ==> SameElsewhere(s, r.value.0, index, docType, id.value)
    ensures r.Ok? ==> r.value.0.indices.Keys == s.indices.Keys + {index}
  {
    if id.None? then Err(NullArgument)
    else if json.None? then Err(NullArgument)
    else Ok((Put(s, index, docType, id.value, json.value), id.value))
  }

  /**
   * `update` / `updateDocument`: a null id or document is rejected first;
   * updating a document that does not exist (or whose index does not) is an
   * error from the store; otherwise the given members are merged into the
   * stored document and the members not given keep their values.
   */
  function Update(s: Store, index: string, docType: string, id: Option<Id>, json: Option<Doc>): (r: Result<Store>)
    ensures (id.None? || json.None?) ==> r == Err(NullArgument)
    ensures id.Some? && json.Some? && Lookup(s, index, docType, id.value).None? ==> r == Err(StoreFailure)
    ensures r.Ok? <==> id.Some? && json.Some? && Lookup(s, index, docType, id.value).Some?
    ensures r.Ok? ==> SameElsewhere(s, r.value, index, docType, id.value)
    ensures r.Ok? ==> r.value.indices.Keys == s.indices.Keys
    ensures r.Ok? ==> var stored := Lookup(r.value, index, docType, id.value);
                      var before := Lookup(s, index, docType, id.value).value;
                      && stored.Some?
                      && stored.value.Keys == before.Keys + json.value.Keys
                      && (forall m :: m in json.value ==> stored.value[m] == json.value[m])
                      && (forall m :: m in before && m !in json.value ==> stored.value[m] == before[m])
  {
    if id.None? || json.None? then Err(NullArgument)
    else match Lookup(s, index, docType, id.value)
      case None => Err(StoreFailure)
      case Some(before) => Ok(Put(s, index, docType, id.value, before + json.value))
  }

  /** A search as sent to the store: target, window, filter and sorts in the order they were added. */
  datatype SearchRequest = SearchRequest(index: string, docType: string, from: int, size: int, query: Query, sorts: seq<FieldSort>)

  /** The number of matching documents, and the requested window of them. */
  datatype SearchResponse = SearchResponse(totalHits: nat, hits: seq<Doc>)

  /**
   * The six-argument `getAll`: a missing offset means 0 and a missing size
   * means `EsMaxSize`; the query and the sorts are passed on unchanged.
   */
  function PrepareSearch(index: string, docType: string, from: Option<int>, size: Option<int>,
                         query: Query, sorts: seq<FieldSort>): (req: SearchRequest)
    ensures req.index == index && req.docType == docType
    ensures from.None? ==> req.from == 0
    ensures from.Some? ==> req.from == from.value
    ensures size.None? ==> req.size == EsMaxSize
    ensures size.Some? ==> req.size == size.value
    ensures req.query == query && req.sorts == sorts
  {
    var first := if from.Some? then from.value else 0;
    var count := if size.Some? then size.value else EsMaxSize;
    SearchRequest(index, docType, first, count, query, sorts)
  }

  /** The three-argument `getAll`: no paging and no sorts. */
  function PrepareSearchAll(index: string, docType: string, query: Query): (req: SearchRequest)
    ensures req == SearchRequest(index, docType, 0, EsMaxSize, query, [])
  {
    PrepareSearch(index, docType, None, None, query, [])
  }

  /** The four-argument `findAll`: the same defaults, with index and type names lower-cased. */
  function PrepareFindAll(index: string, docType: string, from: Option<int>, size: Option<int>,
                          query: Query, sorts: seq<FieldSort>): (req: SearchRequest)
    ensures req.index == ToLowerCase(index) && req.docType == ToLowerCase(docType)
    ensures req.from == (if from.Some? then from.value else 0)
    ensures req.size == (if size.Some? then size.value else EsMaxSize)
    ensures req.query == query && req.sorts == sorts
  {
    PrepareSearch(ToLowerCase(index), ToLowerCase(docType), from, size, query, sorts)
  }

  /** The one-argument `findAll`: no paging and no sorts. */
  function PrepareFindAllUnpaged(index: string, docType: string, query: Query): (req: SearchRequest)
    ensures req == SearchRequest(ToLowerCase(index), ToLowerCase(docType), 0, EsMaxSize, query, [])
  {
    PrepareFindAll(index, docType, None, None, query, [])
  }

  /**
   * The documents of `docs` the query selects, in the order the store
   * visits the ids in `scan`. The visiting order stands for the store's own
   * ordering of results, sorts included, which is not modelled. The store
   * holds one document per id and returns it once, so an id the order
   * names more than once is taken at its last visit only.
   */
  function Matching(docs: map<Id, Doc>, scan: seq<Id>, q: Query): (hits: seq<Doc>)
    ensures |hits| <= |scan|
    ensures forall i :: 0 <= i < |hits| ==> Matches(q, hits[i])
  {
    if |scan| == 0 then []
    else
      var rest := Matching(docs, scan[1..], q);
      if scan[0] in docs && scan[0] !in scan[1..] && Matches(q, docs[scan[0]]) then [docs[scan[0]]] + rest else rest
  }

  /** A document is among the matches exactly when a visited id holds it and the query selects it. */
  lemma {:induction false} MatchingMembers(docs: map<Id, Doc>, scan: seq<Id>, q: Query, x: Doc)
    ensures x in Matching(docs, scan, q) <==> exists k :: k in scan && k in docs && docs[k] == x && Matches(q, x)
  {
    if |scan| > 0 {
      MatchingMembers(docs, scan[1..], q, x);
      assert forall k :: k in scan <==> k == scan[0] || k in scan[1..] by {
        assert scan == [scan[0]] + scan[1..];
      }
    }
  }

  /**
   * Visiting `a` and then `b` lists the matches of `a`, less the ids `b`
   * visits again, followed by the matches of `b`: the visiting order is
   * kept, and a repeated id is listed at its last visit.
   */
  lemma {:induction false} MatchingAppend(docs: map<Id, Doc>, a: seq<Id>, b: seq<Id>, q: Query)
    ensures Matching(docs, a + b, q) == Matching(docs - (set k | k in b), a, q) + Matching(docs, b, q)
  {
    if |a| == 0 {
      assert a + b == b;
    } else {
      assert (a + b)[1..] == a[1..] + b;
      MatchingAppend(docs, a[1..], b, q);
      assert a[0] in a[1..] + b <==> a[0] in a[1..] || a[0] in b;
    }
  }

  /** The ids among `scan` that hold a document the query selects. */
  function MatchedIds(docs: map<Id, Doc>, scan: seq<Id>, q: Query): set<Id> {
    set k | k in scan && k in docs && Matches(q, docs[k])
  }

  /**
   * One hit per matching id: the number of matches is the number of
   * distinct visited ids whose document the query selects, however often
   * the order names an id.
   */
  lemma {:induction false} MatchingCountsEachIdOnce(docs: map<Id, Doc>, scan: seq<Id>, q: Query)
    ensures |Matching(docs, scan, q)| == |MatchedIds(docs, scan, q)|
  {
    if |scan| == 0 {
      assert MatchedIds(docs, scan, q) == {};
    } else {
      var k0, tail := scan[0], scan[1..];
      MatchingCountsEachIdOnce(docs, tail, q);
      var ids, tailIds := MatchedIds(docs, scan, q), MatchedIds(docs, tail, q);
      assert forall k :: k in scan <==> k == k0 || k in tail by {
        assert scan == [k0] + tail;
      }
      if k0 in docs && k0 !in tail && Matches(q, docs[k0]) {
        assert ids == tailIds + {k0};
        assert k0 !in tailIds;
      } else {
        assert ids == tailIds;
      }
    }
  }

  /** When the order visits every stored id, the matches number exactly the stored documents the query selects. */
  lemma MatchingCountsStoredMatches(docs: map<Id, Doc>, scan: seq<Id>, q: Query)
    requires forall k :: k in docs ==> k in scan
    ensures |Matching(docs, scan, q)| == |set k | k in docs && Matches(q, docs[k])|
  {
    MatchingCountsEachIdOnce(docs, scan, q);
    assert MatchedIds(docs, scan, q) == set k | k in docs && Matches(q, docs[k]);
  }

  /** The slice `[from, from + size)` of `hits`, cut short at the end. */
  function Page(hits: seq<Doc>, from: nat, size: nat): (page: seq<Doc>)
    ensures |page| <= size
    ensures |page| == if from >= |hits| then 0 else if from + size <= |hits| then size else |hits| - from
    ensures forall i :: 0 <= i < |page| ==> from + i < |hits| && page[i] == hits[from + i]
    ensures from == 0 && |hits| <= size ==> page == hits
  {
    if from >= |hits| then []
    else if from + size <= |hits| then hits[from..from + size]
    else hits[from..]
  }

  /** The window the store accepts: non-negative, and at most `MaxResultWindow` deep. */
  predicate WindowAccepted(from: int, size: int) {
    0 <= from && 0 <= size && from + size <= MaxResultWindow
  }

  /**
   * Run a search. A missing index answers nothing (the clients catch the
   * index-not-found error and return empty); a window the store refuses is
   * an error; otherwise the response counts every match and carries the
   * requested window of them, `Page` saying exactly which.
   */
  function Execute(s: Store, req: SearchRequest, scan: seq<Id>): (r: Result<Option<SearchResponse>>)
    ensures req.index !in s.indices ==> r == Ok(None)
    ensures r.Err? <==> req.index in s.indices && !WindowAccepted(req.from, req.size)
    ensures r.Err? ==> r.failure == StoreFailure
    ensures r.Ok? && r.value.Some? ==>
              var all := Matching(DocsOf(s, req.index, req.docType), scan, req.query);
              var resp := r.value.value;
              && resp.totalHits == |all|
              && WindowAccepted(req.from, req.size)
              && resp.hits == Page(all, req.from, req.size)
  {
    if req.index !in s.indices then Ok(None)
    else if !WindowAccepted(req.from, req.size) then Err(StoreFailure)
    else
      var all := Matching(DocsOf(s, req.index, req.docType), scan, req.query);
      Ok(Some(SearchResponse(|all|, Page(all, req.from, req.size))))
  }

  /** With the default paging every request is inside the accepted window. */
  lemma DefaultWindowAccepted(index: string, docType: string, query: Query, sorts: seq<FieldSort>)
    ensures WindowAccepted(PrepareSearch(index, docType, None, None, query, sorts).from,
                           PrepareSearch(index, docType, None, None, query, sorts).size)
  {
  }
}
